=== FILE: README.md ===
# Genocop in Dafny

A model of the `Genocop` genetic optimiser: a real-coded evolutionary
minimiser of an objective over a box `[xMin, xMax]` of dimension `D`. The
model covers

- the bounds map the constructor precomputes;
- the option sanity pass of `run`;
- the seeding of the first population;
- best-so-far tracking in `calculateScores`;
- tournament selection in `selectParents`;
- assembly of the next generation in `createChildren` (elitism, crossovers,
  parent copies, mutation);
- the three crossover operators and the two mutation operators.

Every random value is an explicit argument. Each is constrained to the range
its generator promises (module `Draws`). A `uniform_real_distribution` draws
from a half-open interval, so probability draws are in `[0, 1)` and mutation
draws in `[-1, 1)`. The header comments call these ranges closed. The
half-open reading matters for the tournament: its win test is `coin < p`, so
`p = 1` is deterministic only because a draw of exactly 1 cannot happen.
Doubles are `real`. The objective is a total function `Vector -> real`.

Modules follow the program's structure:

- `Vectors`: vectors, `Score`, blending.
- `Bounds`: box and offset/scale map.
- `Draws`: draw ranges.
- `Config`: options, sanitation, annealed fine range.
- `Crossover`: the three crossover operators.
- `Mutation`: seeding, full-range and fine-range mutation.
- `Selection`: the index permutation and tournaments.
- `Assembly`: `createChildren`.
- `Engine`: `calculateScores` and `run`.

Where the code and the documented behaviour differ, the model follows the code:

- A `totalProbability` of 0 does not skip the crossover phase. The gate test
  is `p > pCrossover`, so a draw of exactly 0 still crosses.
- A negative `totalProbability` aborts only below `-1e-5`.
- The "two distinct parents" rule fails with a single parent. In that case
  the second index wraps back onto the first.
- The elite copy and the returned solution behave as described under
  "## Findings". The model keeps the as-written behaviour next to the
  corrected one.

`std::nth_element` and `std::sort` leave the order of ties unspecified. The
model sorts by insertion, which meets both contracts. The contracts of
`NthElement` and `SortPrefix` state only what the standard promises.

## Model

| member | source | states |
|---|---|---|
| Vectors.LessIsStrictWeakOrder | inc/Genocop.h:71-74 | `Score` ordering compares fitness only. It is irreflexive, asymmetric and transitive. Two scores are incomparable exactly when their fitness is equal. Replacing a vector never changes a comparison. |
| Vectors.BlendBetween | src/Genocop.cpp:334-338 | For a weight in [0, 1], every coordinate of `(1-alpha)*x + alpha*y` lies between `x[i]` and `y[i]`. |
| Bounds.MakeBox | src/Genocop.cpp:12-20 | The constructor's offset and scale satisfy `offset - scale == xMin` and `offset + scale == xMax` in every dimension. |
| Bounds.DenormalizeEndpoints | inc/Genocop.h:91-95 | `Denormalize` is the map `offset + scale*u` of src/Genocop.cpp:83 and :362. The map sends -1 to `xMin[i]` and +1 to `xMax[i]`. |
| Bounds.DenormalizeInBounds | src/Genocop.cpp:83 | For `xMin[i] <= xMax[i]` and `u` in [-1, 1], `offset + scale*u` lies in `[xMin[i], xMax[i]]`. |
| Bounds.NormalizeRoundTrip | inc/Genocop.h:91-95 | On a non-degenerate dimension the map and its inverse undo each other, in both directions. |
| Config.DisableClassic | src/Genocop.cpp:35-39 | With fewer than two genes the classic share becomes 0. Nothing else changes. |
| Config.Sanitize | src/Genocop.cpp:33-60 | Exactly two errors are raised. The first fires iff crossover is enabled and the mix sums to at most 0. The second fires iff `totalProbability < -1e-5`. Otherwise only the crossover shares change. `pClassic` is first set to 0 when `D < 2`. When `totalProbability > 0`, each share then becomes its share of the sum. Otherwise the shares are left as they are. |
| Config.SanitizedMixIsNormalized | src/Genocop.cpp:41-55 | Whenever crossover is enabled and sanitation succeeds, the three shares sum to exactly 1. |
| Config.SanitizeIdempotent | src/Genocop.cpp:33-60 | Sanitising sanitised options changes nothing. |
| Config.DefaultsAreSane | inc/Genocop.h:43-46 | The default mix 0.4/0.3/0.3 sums to 1. Sanitation leaves the defaults unchanged when `D >= 2`. |
| Config.DefaultsOneDimensional | src/Genocop.cpp:35-55 | With one gene the defaults lose the classic share. Linear and heuristic are renormalised to 1/2 each. |
| Config.FineRangeEndpoints | src/Genocop.cpp:301 | `FineRange` models the annealed width. The fine range is `fineMutationMax` at iteration 0 and `fineMutationMin` at `maxIters`. |
| Config.FineRangeAnneals | src/Genocop.cpp:301 | For `0 <= iter <= maxIters` the fine range stays in `[min, max]`. It never grows from one iteration to a later one. |
| Crossover.ClassicCrossover | src/Genocop.cpp:315-332 | Children keep the parents' length. Genes before the split come from their own parent and genes from the split on are swapped. |
| Crossover.SpliceIsRecombination | src/Genocop.cpp:315-332 | At each index the two children hold the two parents' genes (multiset). Crossing the children again at the same split gives back both parents. |
| Crossover.SpliceStaysInBox | src/Genocop.cpp:315-332 | A classic child of two in-box parents is in the box. |
| Crossover.LinearCrossoverStaysBetween | src/Genocop.cpp:334-338 | `LinearCrossover` models `linearCrossover`. It gives parent0 at weight 0 and parent1 at weight 1. Swapping the parents and mirroring the weight to `1 - alpha` gives the same child. For a weight in [0, 1], every gene lies between the parents' genes and the child stays in any box holding both. |
| Crossover.Worse | src/Genocop.cpp:343 | The parent with the larger fitness; parent1 on a tie. |
| Crossover.Better | src/Genocop.cpp:343 | The other parent: fitness at most both, parent0 on a tie. Together with `Worse` it is the pair of parents. |
| Crossover.HeuristicCrossoverDirection | src/Genocop.cpp:340-351 | `HeuristicCrossover` models `heuristicCrossover`. It is linear crossover from the worse to the better parent. Weight 0 gives the worse parent (parent1 on a tie) and weight 1 the better. Every gene moves along the worse-to-better difference. |
| Crossover.HeuristicCrossoverMayLeaveBox | src/Genocop.cpp:277-278 | No clamping is applied. Box [0, 1], parents 0 (fitness 1) and 1 (fitness 0), and weight 0.75 * 2 give the child 1.5, outside the box. |
| Mutation.SeedIndividual | src/Genocop.cpp:80-84 | Each seeded gene maps back to its draw. With ordered bounds and draws in [-1, 1) the individual is in the box. |
| Mutation.SeedPopulation | src/Genocop.cpp:73-85 | One individual of `D` genes per draw row. All are in the box when the bounds are ordered. |
| Mutation.FullRangeMutation | src/Genocop.cpp:353-365 | Genes whose coin exceeds `pFull` are unchanged. Every other gene maps back to its value draw and lies in its bounds. An in-box vector stays in the box. |
| Mutation.Clamp | src/Genocop.cpp:377-378 | The result is at most `hi`, at least `lo` when `lo <= hi`, and equal to the input when the input is already inside. |
| Mutation.ClampIdempotent | src/Genocop.cpp:377-378 | Clamping twice equals clamping once. |
| Mutation.ClampToBox | src/Genocop.cpp:375-379 | After the clamping loop every gene is within its bounds (ordered box). Genes already inside are kept, a gene below `xMin` becomes `xMin`, a gene above `xMax` becomes `xMax`, and an in-box vector is unchanged. |
| Mutation.FineRangeMutation | src/Genocop.cpp:367-380 | For any direction, multiplier and range, the result lies in the box. A moved gene that lands inside its bounds is kept exactly as moved. One that overshoots a bound is set to that bound. |
| Selection.SwapIndex | src/Genocop.cpp:162 | The swap index of step `i` lies in `[i, N-1]`. |
| Selection.Swap | src/Genocop.cpp:163 | A swap keeps the multiset of indices and their bound. |
| Selection.ApplySwaps | src/Genocop.cpp:159-164 | A sequence of in-range swaps keeps the permutation's length, multiset and bound. |
| Selection.PartialShuffle | src/Genocop.cpp:159-164 | The shuffle loop performs exactly the swaps its draws determine, and the result is a rearrangement of the input. |
| Selection.SortByValue | src/Genocop.cpp:167 | The result is a rearrangement of its input, ordered by non-decreasing fitness. |
| Selection.SortPrefix | src/Genocop.cpp:167 | Sorting the first `size` entries rearranges only them, orders them by fitness, and leaves the rest untouched. |
| Selection.WalkFrom | src/Genocop.cpp:170-181 | The walk stops at the first participant whose coin is below `p`, or at the last participant. |
| Selection.WalkIsDeterministic | inc/Genocop.h:30 | With `p >= 1` and probability coins, the first participant always wins. |
| Selection.Winner | src/Genocop.cpp:169-181 | The winner is one of the first `size` entries. |
| Selection.DeterministicTournament | inc/Genocop.h:30 | With `p >= 1`, the winner has the smallest fitness among the participants. With `size == N` it has the smallest fitness of the population. |
| Selection.FirstIsGlobalMinimum | src/Genocop.cpp:167 | In a fitness-sorted permutation of the whole population, the first index has the smallest fitness. |
| Selection.RunTournament | src/Genocop.cpp:156-182 | The index sequence stays a permutation of `0..N-1`. The participants are the shuffled prefix, sorted by fitness. The winner is one of them, and with `p >= 1` and `size == N` it is a global minimum. |
| Selection.ResizeIndex | src/Genocop.cpp:136-145 | An index sequence whose size differs from `N` is replaced by the identity 0 .. N-1. One of the right size is kept. Either way the result is a permutation of 0 .. N-1. |
| Selection.Tournaments | src/Genocop.cpp:184-189 | One tournament per parent, each on the permutation the previous one left. Every parent is a copy of the individual its tournament picked, and the sequence stays a permutation. With no tournaments it is returned unchanged. |
| Selection.SelectParents | src/Genocop.cpp:132-190 | Exactly `count` parents are produced, each a copy of some individual of `scores`. The index sequence is a permutation of 0 .. N-1 afterwards. With no tournaments it is the identity when the incoming size differed and the incoming sequence otherwise. With `p >= 1` and `size == N`, every parent has the population's smallest fitness. |
| Assembly.NthElement | src/Genocop.cpp:210-211 | The result rearranges the permutation so that no entry before position `k` is worse than one from `k` on. |
| Assembly.EliteHoldsBest | src/Genocop.cpp:202-219 | After the partition, some elite index holds the population's smallest fitness. |
| Assembly.EliteKeepsFitness | src/Genocop.cpp:213-216 | `EliteChildren` models the intended copy loop: row `i` is the vector of the `i`-th partitioned index. With that copy, the objective of each elite row equals the fitness it was selected for. |
| Assembly.EliteChildrenAsWritten | src/Genocop.cpp:215 | As written, every gene of an elite row equals that elite's fitness. |
| Assembly.EliteCopyAsWrittenLosesBest | src/Genocop.cpp:215 | Counterexample. With one gene, x = [5] and f(x) = -x (fitness -5), the as-written elite row is [-5] and its objective is 5. |
| Assembly.SelectElite | src/Genocop.cpp:202-219 | Elitism copies the first `k` individuals of the partitioned permutation. They are no worse than the rest and include the population's best. The permutation stays a permutation and is untouched when `k == 0`. |
| Assembly.SelectKindDiffersOnlyAtZeroShare | src/Genocop.cpp:261-280 | `SelectKindAsWritten` models the thresholds `p <= pClassic`, `p <= pClassic + pLinear` as written. `SelectKind` is the corrected choice. The as-written operator choice and the corrected one differ exactly when the draw is at most a classic share that is not positive. |
| Assembly.SelectKindRespectsSanitize | src/Genocop.cpp:261-280 | Under sanitised options, the corrected choice picks classic only when `D >= 2`. It never picks heuristic when the classic and linear shares cover [0, 1). |
| Assembly.ClassicWithoutSplitAsWritten | src/Genocop.cpp:262 | Counterexample. With one gene and the default options, the as-written choice picks classic on a draw of 0, and no split point exists. |
| Assembly.SecondParent | src/Genocop.cpp:245-251 | The second index is a valid parent index. It is the drawn one unless that repeats the first. It differs from the first whenever there are at least two parents; with one parent it equals the first. |
| Assembly.CrossoverPass | src/Genocop.cpp:236-281 | At most `N` children are written and earlier slots are kept. Each child has `D` genes, and a classic second child is written only if a slot remains. A negative `totalProbability` writes nothing. With at least one parent, a first gate draw not above `totalProbability` (0 included) writes a child. An empty parent pool writes nothing. Without heuristic crossover, in-box parents give in-box children. |
| Assembly.FillByCopy | src/Genocop.cpp:287-293 | Every remaining slot up to `N` is written with the vector of the parent its draw selects. Earlier slots are kept. |
| Assembly.MutateChild | src/Genocop.cpp:305-311 | Fine-range mutation (when its coin is at most `pFine`) puts the child in the box. Full-range mutation then keeps the box and places every redrawn gene at its draw. A gene that full-range mutation does not redraw is moved by its direction times `mult` times the annealed width and clamped to the box when the fine coin succeeds; it keeps its value when that coin fails. With no mutation chosen the child is unchanged. |
| Assembly.MutationPass | src/Genocop.cpp:303-312 | Children before `mutationStartIdx` are untouched and every later child goes through the mutation stage. In-box children stay in the box. |
| Assembly.Breed | src/Genocop.cpp:221-312 | After elitism, exactly `N` children of `D` genes result and the elite prefix is unchanged. Every slot the crossovers left is a copy of the parent its draw selects. Every child after the elite is the mutation stage (`MutateChild`) applied to that pre-mutation child, with the annealed fine range of the iteration. Without heuristic crossover everything stays in the box. |
| Assembly.CreateChildren | src/Genocop.cpp:193-313 | Exactly `N` children of `D` genes are produced. The first `eliteChildrenCount` are the partitioned permutation's front individuals, unmutated, no worse than the rest and including the population's best. The permutation stays a permutation. Every slot the crossovers left is a copy of the parent its draw selects. Every child after the elite is the mutation stage (`MutateChild`) applied to that pre-mutation child, with the annealed fine range of the iteration. Without heuristic crossover, in-box parents and scores give in-box children. |
| Engine.Track | src/Genocop.cpp:101-105 | The tracked fitness never increases and bounds every fitness of the generation. It changes only for a strictly better individual, which it records by index and vector: the first index with that fitness. |
| Engine.CalculateScores | src/Genocop.cpp:91-113 | Every individual is evaluated in order. The tracker is updated exactly as `Track` describes. |
| Engine.AttainedStep | src/Genocop.cpp:101-105 | Once the tracked fitness is below 1e99, some recorded individual attains it. |
| Engine.SolutionAsWrittenMisses | src/Genocop.cpp:128 | `SolutionAsWritten` reads `scores[bestIdx]` of the final generation as written. `Solution` is the corrected read: the tracked vector, or the final generation's entry when nothing beat 1e99. Counterexample. With f(x) = x + 1 and generations [0] then [4], the best fitness 1 is tracked, but the as-written solution [4] has fitness 5. The tracked vector [0] has fitness 1. |
| Engine.SurvivorKeepsBest | src/Genocop.cpp:202-219 | If the previous best vector survives into the next population, the next generation's best fitness is no worse. |
| Engine.EliteSurvivesEvaluation | src/Genocop.cpp:211-216 | If the first `k` individuals of a population are the vectors of the `k` best-scored individuals before, evaluation gives them back their scores. The next generation then opens with those `k` scores. |
| Engine.BestCountKept | src/Genocop.cpp:202-219 | When a generation opens with the `k` best of the one before, for every threshold `t` it holds at least min(k, m) individuals with fitness at most `t`, where m is how many the previous generation held. |
| Engine.Record | src/Genocop.cpp:91-113 | One evaluation extends the history of generations. The tracked fitness stays a lower bound attained by a recorded individual, and the elitist and box guarantees carry over. |
| Engine.Generation | src/Genocop.cpp:121-122 | One round of selection and assembly yields `N` children of `D` genes and a permutation of 0 .. N-1. With an elite, the population's best vector survives. The first `eliteChildrenCount` children are the vectors of the `eliteChildrenCount` best-scored individuals, in the order of a permutation whose front is no worse than its back. Without heuristic crossover everything stays in the box. These rely on the corrected elite copy of src/Genocop.cpp:215 (see "## Findings"). |
| Engine.Evolve | src/Genocop.cpp:115-123 | The main loop records `maxIters` evaluations and leaves a permutation of 0 .. N-1 when it ran at least once. It keeps the tracker's guarantees and, with an elite, the monotone best. Each recorded generation opens with the `eliteChildrenCount` best of the one before, with their fitness. The monotone best, the kept elite and box containment rely on the corrected elite copy of src/Genocop.cpp:215. |
| Engine.Round | src/Genocop.cpp:115-122 | One pass of the main loop evaluates the population and breeds `N` children of `D` genes from it. The history grows by one generation, the tracker's guarantees hold, and the elitist guarantees extend to the new generation. |
| Engine.Finish | src/Genocop.cpp:125-129 | The last evaluation. The returned fitness bounds every recorded fitness and is at most 1e99. Below 1e99, the returned vector is a recorded individual whose objective equals it. |
| Engine.Run | src/Genocop.cpp:26-130 | An error is returned exactly when sanitation fails. Otherwise `maxIters + 1` evaluated generations are recorded, and the returned fitness bounds every recorded fitness. Below 1e99 the returned solution attains it; this holds for the corrected read of src/Genocop.cpp:128 (see "## Findings"). With an elite the best fitness never worsens from one generation to the next. Each generation opens with the `eliteChildrenCount` best of the one before. So for every threshold `t`, the number of individuals with fitness at most `t` in the next generation is at least the smaller of `eliteChildrenCount` and that number in the current one. Without heuristic crossover every individual and the solution stay in the box. These rely on the corrected elite copy of src/Genocop.cpp:215. The index sequence left for the next run is a permutation, of 0 .. N-1 once a generation was created. |

## Left out

- `getRandomDirection` (src/Genocop.cpp:382-402): it needs Gaussian draws and `sqrt`. Fine-range mutation takes the direction as an arbitrary vector, and its clamp guarantee holds for every direction.
- The random engine and its time-based seeding: every draw is an argument. The model groups each call's draws into records (`TournamentDraw`, `CrossoverDraw`, `MutationDraw`, `RunDraws`) instead of one stream consumed in program order. Fields a branch does not consume are ignored.
- Progress output, `averageScore` and the observer callback are not modelled as calls. `Run` returns the sequence of evaluated generations the callback would receive.
- src/main.cpp, the video writer and the print helpers (src/common.cpp) are not part of this model. They are drivers and I/O.
- The typedef headers inc/common.h and inc/ObjectiveFunction.h are not part of this model. The objective is an arbitrary total function.
- The declared but never defined member `mutation` (inc/Genocop.h:131) has no counterpart.
- Floating-point rounding, infinities and NaN: `real` arithmetic is exact.
- Unsigned 32-bit arithmetic: counts and indices are `nat`, so wrap-around of `uint32_t` is not modelled.
- Engine.Runnable: an empty population is excluded, because `scores[bestIdx]` (src/Genocop.cpp:128) would then read past the end.
- Engine.Runnable: when generations are created, an elite larger than the population is excluded, because `nth_element` and the elite copy (src/Genocop.cpp:211-216) would run past the end of `scoreIdx`.
- Engine.Runnable: when generations are created, an empty parent pool is excluded unless the elite fills every slot, because the copy loop (src/Genocop.cpp:287-293) would index an empty `parents`. With a full elite both parent loops are empty and the run is modelled.
- Engine.Runnable: when there are tournaments, a size of 0 is excluded, because `tournamentSize - 1` wraps around (src/Genocop.cpp:170). A size above the population is excluded, because `% (SCORES_COUNT - i)` divides by zero (src/Genocop.cpp:162). A negative size, converted to a huge unsigned one, falls under the second case.
- Bounds vectors longer than `D` are not modelled: `Mapped` fixes their length to `D`.
- Assembly.CrossoverPass: the contract states how many children are written, their length and box membership. It does not state which operator and which parents produced each child. Which child lands in which slot depends on the gate, parent-index, operator and weight draws of every earlier gate, so such a statement would only restate the loop. The facts about each operator are proved separately in the Crossover module. The loop chooses the operator with the corrected `SelectKind`: classic only when `pClassic > 0 && p <= pClassic`, not `p <= pClassic` as written at src/Genocop.cpp:262 (see "## Findings").
- Assembly.NthElement: any partition around position `k` is a valid `nth_element`. The model picks the sorted one, and its contract promises only the partition.
- Assembly.CreateChildren: it uses the corrected elite copy and operator choice from "## Findings".
- Engine.Run: it uses the corrected solution of "## Findings". With the read of src/Genocop.cpp:128 as written, the returned vector need not attain the returned fitness.
- Engine.Generation, Engine.Evolve, Engine.Run: elitist survival, the monotone best fitness and box containment are proved for the corrected elite copy. The same goes for the kept `eliteChildrenCount` best and the count of individuals at most a threshold. With the copy as written (src/Genocop.cpp:215) an elite child holds its fitness in every gene, so none of these is promised for it.

## Findings

| source | as written | input that shows it | evidently intended | confidence | as-written member | corrected member |
|---|---|---|---|---|---|---|
| src/Genocop.cpp:215 | The elite copy assigns the elite's scalar fitness to the `valarray` row, so every gene of an elite child becomes the fitness value | one gene, f(x) = -x, population [5] (fitness -5), one elite: the elite row is [-5], of fitness 5 | copy the elite's vector `.x` | not executed; high | Assembly.EliteCopyAsWrittenLosesBest | Assembly.SelectElite |
| src/Genocop.cpp:128 | The solution is read from the final generation at `bestIdx`, which may have been recorded in an earlier generation | f(x) = x + 1, generations [0] then [4]: returns score 1 with vector [4] (fitness 5) | return the vector that achieved `bestScore` | not executed; high | Engine.SolutionAsWrittenMisses | Engine.Finish |
| src/Genocop.cpp:262 | `p <= pClassic` chooses classic crossover on a draw of 0 even when the share was forced to 0 for `D < 2`; the split distribution's range [1, D-1] is then empty | D = 1, default options, operator draw 0.0 | never choose classic crossover while its share is 0 | not executed; medium | Assembly.ClassicWithoutSplitAsWritten | Assembly.SelectKindRespectsSanitize |

=== FILE: assembly.dfy ===
/**
 `createChildren`: the next generation is assembled from the elite (the best
 individuals, copied unchanged), from crossover children of the selected
 parents, and from plain copies of parents for the slots that remain; every
 child after the elite then goes through the mutation stage.
 */
module Assembly {
  import opened Vectors
  import opened Bounds
  import opened Draws
  import opened Config
  import opened Crossover
  import opened Mutation
  import opened Selection

  /** Every vector of `vs` lies inside the box. */
  predicate AllInBox(box: Box, vs: seq<Vector>) {
    forall i :: 0 <= i < |vs| ==> InBox(box, vs[i])
  }

  /** Every individual of `scores` lies inside the box. */
  predicate ScoresInBox(box: Box, scores: seq<Score>) {
    forall i :: 0 <= i < |scores| ==> InBox(box, scores[i].x)
  }

  /** Every individual of `scores` has `d` genes. */
  predicate Dimensioned(scores: seq<Score>, d: nat) {
    forall i :: 0 <= i < |scores| ==> |scores[i].x| == d
  }

  // ---------------------------------------------------------------- elitism

  /** `std::nth_element` at position `k`: a rearrangement of `s` in which no
      index before position `k` is worse than one from `k` on. A full sort is
      one of the arrangements the standard allows. */
  function NthElement(scores: seq<Score>, s: seq<nat>, k: nat): (r: seq<nat>)
    requires Below(s, |scores|) && k <= |s|
    ensures |r| == |s| && Below(r, |scores|)
    ensures multiset(r) == multiset(s)
    ensures forall i, j :: 0 <= i < k <= j < |r| ==> scores[r[i]].value <= scores[r[j]].value
  {
    SortByValue(scores, s)
  }

  /** Position of the best individual among the first `k` entries of `s`. */
  function ArgMinPrefix(scores: seq<Score>, s: seq<nat>, k: nat): (pos: nat)
    requires Below(s, |scores|) && 1 <= k <= |s|
    ensures pos < k
    ensures forall i :: 0 <= i < k ==> scores[s[pos]].value <= scores[s[i]].value
  {
    if k == 1 then 0
    else
      var q := ArgMinPrefix(scores, s, k - 1);
      if scores[s[k - 1]].value < scores[s[q]].value then k - 1 else q
  }

  /** After the partition, some elite index holds the best fitness of the
      whole population: elitism never loses the current best. */
  lemma EliteHoldsBest(scores: seq<Score>, order: seq<nat>, k: nat)
    requires |order| == |scores| && Below(order, |scores|) && IsPermutation(order, |scores|)
    requires 1 <= k <= |order|
    requires forall i, j :: 0 <= i < k <= j < |order| ==> scores[order[i]].value <= scores[order[j]].value
    ensures exists i :: 0 <= i < k && NoneBelow(scores, scores[order[i]].value)
  {
    var pos := ArgMinPrefix(scores, order, k);
    PermutationFacts(order, |scores|);
    forall m | 0 <= m < |scores|
      ensures scores[order[pos]].value <= scores[m].value
    {
      var mn: nat := m;
      assert mn in order;
      var q :| 0 <= q < |order| && order[q] == m;
    }
    assert NoneBelow(scores, scores[order[pos]].value);
  }

  /** The elite rows the copy loop is meant to produce: the individuals at the
      first `k` positions of the partitioned permutation. */
  function EliteChildren(scores: seq<Score>, order: seq<nat>, k: nat): (rows: seq<Vector>)
    requires Below(order, |scores|) && k <= |order|
    ensures |rows| == k
    ensures forall i :: 0 <= i < k ==> rows[i] == scores[order[i]].x
  {
    seq(k, i requires 0 <= i < k => scores[order[i]].x)
  }

  /** The elite copy loop as written: assigning the scalar fitness to a
      `valarray` of `d` genes fills every gene with that fitness. */
  function EliteChildrenAsWritten(scores: seq<Score>, order: seq<nat>, k: nat, d: nat): (rows: seq<Vector>)
    requires Below(order, |scores|) && k <= |order|
    ensures |rows| == k
    ensures forall i :: 0 <= i < k ==> |rows[i]| == d
    ensures forall i, j :: 0 <= i < k && 0 <= j < d ==> rows[i][j] == scores[order[i]].value
  {
    seq(k, i requires 0 <= i < k => seq(d, _ => scores[order[i]].value))
  }

  /** `scores` holds the objective's value of each individual. */
  ghost predicate Evaluated(scores: seq<Score>, f: Vector -> real) {
    forall i :: 0 <= i < |scores| ==> scores[i].value == f(scores[i].x)
  }

  /** With the intended copy, the objective of an elite row is the fitness it
      was selected for. */
  lemma EliteKeepsFitness(scores: seq<Score>, order: seq<nat>, k: nat, f: Vector -> real)
    requires Below(order, |scores|) && k <= |order|
    requires Evaluated(scores, f)
    ensures forall i :: 0 <= i < k ==> f(EliteChildren(scores, order, k)[i]) == scores[order[i]].value
  {
    var rows := EliteChildren(scores, order, k);
    forall i | 0 <= i < k
      ensures f(rows[i]) == scores[order[i]].value
    {
      assert rows[i] == scores[order[i]].x;
    }
  }

  /** With the copy as written, a one-gene population whose only individual
      is x = 5 under f(x) = -x (fitness -5) gets the elite row [-5], whose
      objective is 5: the best individual is replaced by a worse one. */
  lemma EliteCopyAsWrittenLosesBest()
    ensures
      var f := (v: Vector) => if |v| == 0 then 0.0 else -v[0];
      var scores := [Score([5.0], -5.0)];
      var rows := EliteChildrenAsWritten(scores, [0], 1, 1);
      && Evaluated(scores, f)
      && rows == [[-5.0]]
      && rows[0] != EliteChildren(scores, [0], 1)[0]
      && f(rows[0]) == 5.0
      && f(rows[0]) > scores[0].value
  {
    var scores := [Score([5.0], -5.0)];
    var rows := EliteChildrenAsWritten(scores, [0], 1, 1);
    assert rows[0][0] == -5.0;
    assert rows[0] == [-5.0];
  }

  // -------------------------------------------------------------- crossover

  datatype Kind = Classic | Linear | Heuristic

  /** The operator choice as written: `p <= pClassic` picks classic even when
      the classic share was forced to zero, on a draw of exactly 0. */
  function SelectKindAsWritten(p: real, c: CrossoverOptions): Kind {
    if p <= c.pClassic then Classic
    else if p <= c.pClassic + c.pLinear then Linear
    else Heuristic
  }

  /** The operator choice with classic crossover reachable only while its
      share is positive; the thresholds are otherwise those of the source. */
  function SelectKind(p: real, c: CrossoverOptions): Kind {
    if c.pClassic > 0.0 && p <= c.pClassic then Classic
    else if p <= c.pClassic + c.pLinear then Linear
    else Heuristic
  }

  /** The two choices differ exactly when the draw does not exceed a classic
      share that is not positive; in particular never for a draw above 0 or a
      positive share. */
  lemma SelectKindDiffersOnlyAtZeroShare(p: real, c: CrossoverOptions)
    ensures SelectKind(p, c) != SelectKindAsWritten(p, c) <==> p <= c.pClassic <= 0.0
    ensures SelectKindAsWritten(p, c) == Classic && SelectKind(p, c) != Classic ==> p <= 0.0
  {
  }

  /** Under sanitised options a probability draw picks classic crossover only
      when a split point exists, and when the classic and linear shares cover
      the whole unit interval heuristic crossover is never picked. */
  lemma SelectKindRespectsSanitize(d: nat, o: Options, p: real)
    requires Sanitize(d, o).Ok?
    requires IsProbability(p)
    ensures var c := Sanitize(d, o).value.crossover;
      && (SelectKind(p, c) == Classic ==> d >= 2 && IsSplit(1, d))
      && (c.pClassic + c.pLinear >= 1.0 ==> SelectKind(p, c) != Heuristic)
  {
  }

  /** With one gene and the default options the classic share is zero, yet
      the choice as written picks classic on a draw of 0, and classic
      crossover then has no split point to draw. */
  lemma ClassicWithoutSplitAsWritten()
    ensures Sanitize(1, Defaults).Ok?
    ensures var c := Sanitize(1, Defaults).value.crossover;
      && IsProbability(0.0)
      && SelectKindAsWritten(0.0, c) == Classic
      && SelectKind(0.0, c) == Linear
      && forall k: nat :: !IsSplit(k, 1)
  {
    DefaultsOneDimensional(1);
  }

  /** The second parent index: a repeat of the first is moved to the next
      parent, cyclically. */
  function SecondParent(idx0: nat, idx1: nat, parentCount: nat): (r: nat)
    requires idx1 < parentCount
    ensures r < parentCount
    ensures idx1 != idx0 ==> r == idx1
    ensures idx0 < parentCount && parentCount >= 2 ==> r != idx0
    ensures idx0 < parentCount == 1 ==> r == idx0
  {
    if idx1 == idx0 then (idx1 + 1) % parentCount else idx1
  }

  /** The draws one parent-pool entry may consume: the gate, two parent
      indices, the operator choice, a split point and a weight. */
  datatype CrossoverDraw = CrossoverDraw(gate: real, idx0: nat, idx1: nat, kind: real, split: nat, alpha: real)

  predicate ValidCrossoverDraw(dr: CrossoverDraw, parentCount: nat, d: nat) {
    && IsProbability(dr.gate)
    && IsParentDraw(dr.idx0, parentCount)
    && IsParentDraw(dr.idx1, parentCount)
    && IsProbability(dr.kind)
    && (d >= 2 ==> IsSplit(dr.split, d))
    && IsProbability(dr.alpha)
  }

  /** The crossover loop: one gate per parent-pool entry, while output slots
      remain. A classic crossover writes its second child only if a slot is
      left for it. */
  method CrossoverPass(box: Box, d: nat, parents: seq<Score>, c: CrossoverOptions, n: nat,
                       start: seq<Vector>, draws: seq<CrossoverDraw>)
    returns (children: seq<Vector>)
    requires Dimensioned(parents, d)
    requires |start| <= n && forall i :: 0 <= i < |start| ==> |start[i]| == d
    requires |draws| == |parents|
    requires forall i :: 0 <= i < |draws| ==> ValidCrossoverDraw(draws[i], |parents|, d)
    requires d < 2 ==> c.pClassic <= 0.0
    ensures |start| <= |children| <= n
    ensures children[..|start|] == start
    ensures forall i :: 0 <= i < |children| ==> |children[i]| == d
    ensures c.totalProbability < 0.0 || |parents| == 0 ==> children == start
    ensures |parents| >= 1 && |start| < n && draws[0].gate <= c.totalProbability ==> |children| > |start|
    ensures AllInBox(box, start) && ScoresInBox(box, parents) && c.pClassic + c.pLinear >= 1.0 ==>
      AllInBox(box, children)
  {
    ghost var confined := AllInBox(box, start) && ScoresInBox(box, parents) && c.pClassic + c.pLinear >= 1.0;
    children := start;
    var i := 0;
    while i < |parents| && |children| < n
      invariant 0 <= i <= |parents|
      invariant |start| <= |children| <= n
      invariant children[..|start|] == start
      invariant forall t :: 0 <= t < |children| ==> |children[t]| == d
      invariant c.totalProbability < 0.0 || i == 0 ==> children == start
      invariant i > 0 && |start| < n && draws[0].gate <= c.totalProbability ==> |children| > |start|
      invariant confined ==> AllInBox(box, children)
    {
      var dr := draws[i];
      if dr.gate <= c.totalProbability {
        var idx1 := SecondParent(dr.idx0, dr.idx1, |parents|);
        var parent0, parent1 := parents[dr.idx0], parents[idx1];
        var kind := SelectKind(dr.kind, c);
        var kids: seq<Vector>;
        if kind == Classic {
          var child0, child1 := ClassicCrossover(parent0, parent1, dr.split);
          kids := if |children| + 1 < n then [child0, child1] else [child0];
          if confined {
            SpliceStaysInBox(box, parent0.x, parent1.x, dr.split);
            SpliceStaysInBox(box, parent1.x, parent0.x, dr.split);
          }
        } else if kind == Linear {
          kids := [LinearCrossover(parent0, parent1, dr.alpha)];
          if confined {
            LinearCrossoverStaysBetween(box, parent0, parent1, dr.alpha);
          }
        } else {
          kids := [HeuristicCrossover(parent0, parent1, dr.alpha * c.heuristicRangeMult)];
          assert !confined;
        }
        children := children + kids;
      }
      i := i + 1;
    }
  }

  // ------------------------------------------------------------ fill by copy

  /** The copy loop: every slot the crossovers left is filled with the
      vector of a uniformly drawn parent (`fills[i]` for slot `i`). */
  method FillByCopy(parents: seq<Score>, n: nat, start: seq<Vector>, fills: seq<nat>)
    returns (children: seq<Vector>)
    requires |start| <= n && |fills| == n
    requires forall i :: |start| <= i < n ==> fills[i] < |parents|
    ensures |children| == n
    ensures children[..|start|] == start
    ensures forall i :: |start| <= i < n ==> children[i] == parents[fills[i]].x
  {
    children := start;
    while |children| < n
      invariant |start| <= |children| <= n
      invariant children[..|start|] == start
      invariant forall i :: |start| <= i < |children| ==> children[i] == parents[fills[i]].x
      decreases n - |children|
    {
      children := children + [parents[fills[|children|]].x];
    }
  }

  // --------------------------------------------------------------- mutation

  /** The draws the mutation stage may consume for one child: the fine-range
      coin, the unit direction and multiplier of fine-range mutation, and a
      coin and a value per gene for full-range mutation. */
  datatype MutationDraw = MutationDraw(fineCoin: real, dir: Vector, mult: real, coins: seq<real>, values: seq<real>)

  predicate ValidMutationDraw(dr: MutationDraw, d: nat) {
    && IsProbability(dr.fineCoin)
    && |dr.dir| == d
    && IsSignedUnit(dr.mult)
    && |dr.coins| == d && AllProbabilities(dr.coins)
    && |dr.values| == d && AllSignedUnits(dr.values)
  }

  /** One child through the mutation stage: fine-range mutation when the coin
      is at most `pFine`, then full-range mutation in every case. A gene the
      full-range step leaves alone is the original gene without the fine
      step, and the gene moved by `dir[i] * mult * width` and clamped with
      it. */
  function MutateChild(box: Box, d: nat, x: Vector, width: real, m: MutationOptions, dr: MutationDraw): (y: Vector)
    requires Mapped(box, d) && |x| == d && ValidMutationDraw(dr, d)
    ensures |y| == d
    ensures Ordered(box) && InBox(box, x) ==> InBox(box, y)
    ensures Ordered(box) && dr.fineCoin <= m.pFine ==> InBox(box, y)
    ensures forall i :: 0 <= i < d && dr.coins[i] <= m.pFull && box.scale[i] != 0.0 ==>
      Normalize(box, i, y[i]) == dr.values[i]
    ensures dr.fineCoin > m.pFine && (forall i :: 0 <= i < d ==> dr.coins[i] > m.pFull) ==> y == x
    ensures forall i :: 0 <= i < d && dr.fineCoin > m.pFine && dr.coins[i] > m.pFull ==> y[i] == x[i]
    ensures forall i :: 0 <= i < d && dr.fineCoin <= m.pFine && dr.coins[i] > m.pFull ==>
      var moved := x[i] + dr.dir[i] * (dr.mult * width);
      && (box.xMin[i] <= moved <= box.xMax[i] ==> y[i] == moved)
      && (moved < box.xMin[i] <= box.xMax[i] ==> y[i] == box.xMin[i])
      && (moved > box.xMax[i] ==> y[i] == box.xMax[i])
  {
    var moved := if dr.fineCoin <= m.pFine then FineRangeMutation(box, x, dr.dir, dr.mult, width) else x;
    FullRangeMutation(box, d, moved, m.pFull, dr.coins, dr.values)
  }

  /** The mutation loop: the children from `start` on are mutated, the elite
      before `start` are left alone. */
  method MutationPass(box: Box, d: nat, children: seq<Vector>, start: nat, width: real,
                      m: MutationOptions, draws: seq<MutationDraw>)
    returns (mutated: seq<Vector>)
    requires Mapped(box, d)
    requires start <= |children| && |draws| == |children|
    requires forall i :: 0 <= i < |children| ==> |children[i]| == d && ValidMutationDraw(draws[i], d)
    ensures |mutated| == |children|
    ensures mutated[..start] == children[..start]
    ensures forall i :: start <= i < |children| ==>
      mutated[i] == MutateChild(box, d, children[i], width, m, draws[i])
    ensures forall i :: 0 <= i < |mutated| ==> |mutated[i]| == d
    ensures Ordered(box) && AllInBox(box, children) ==> AllInBox(box, mutated)
  {
    mutated := children;
    var i := start;
    while i < |children|
      invariant start <= i <= |children| && |mutated| == |children|
      invariant forall t :: 0 <= t < |children| ==>
        mutated[t] == if start <= t < i then MutateChild(box, d, children[t], width, m, draws[t]) else children[t]
    {
      mutated := mutated[i := MutateChild(box, d, children[i], width, m, draws[i])];
      i := i + 1;
    }
  }

  // --------------------------------------------------------------- assembly

  /** All draws one call of `createChildren` may consume. The copy draws
      are only consumed when there is a parent to copy. */
  datatype GenerationDraws = GenerationDraws(
    crossovers: seq<CrossoverDraw>,
    fills: seq<nat>,
    mutations: seq<MutationDraw>)

  predicate ValidGenerationDraws(g: GenerationDraws, parentCount: nat, n: nat, d: nat) {
    && |g.crossovers| == parentCount
    && (forall i :: 0 <= i < parentCount ==> ValidCrossoverDraw(g.crossovers[i], parentCount, d))
    && |g.fills| == n
    && (parentCount >= 1 ==> forall i :: 0 <= i < n ==> IsParentDraw(g.fills[i], parentCount))
    && |g.mutations| == n
    && (forall i :: 0 <= i < n ==> ValidMutationDraw(g.mutations[i], d))
  }

  /** The elitism step: the permutation is partitioned around position `k`
      (left as it is when there is no elite) and the first `k` individuals
      are copied. */
  method SelectElite(scores: seq<Score>, scoreIdx: seq<nat>, k: nat)
    returns (order: seq<nat>, elite: seq<Vector>)
    requires |scoreIdx| == |scores| && IsPermutation(scoreIdx, |scores|)
    requires k <= |scores|
    ensures |order| == |scores| && Below(order, |scores|) && IsPermutation(order, |scores|)
    ensures k == 0 ==> order == scoreIdx
    ensures |elite| == k && forall i :: 0 <= i < k ==> elite[i] == scores[order[i]].x
    ensures forall i, j :: 0 <= i < k <= j < |scores| ==> scores[order[i]].value <= scores[order[j]].value
    ensures k >= 1 ==> exists i :: 0 <= i < k && NoneBelow(scores, scores[order[i]].value)
  {
    PermutationFacts(scoreIdx, |scores|);
    if k > 0 {
      order := NthElement(scores, scoreIdx, k);
      assert IsPermutation(order, |scores|);
      EliteHoldsBest(scores, order, k);
      elite := EliteChildren(scores, order, k);
    } else {
      order := scoreIdx;
      elite := [];
    }
  }

  /** Everything `createChildren` does after elitism: crossovers, copies of
      parents into the remaining slots, and mutation of every child after the
      elite. `filled` is the generation before mutation and `crossedCount`
      the number of slots written before the copy loop. */
  method Breed(box: Box, d: nat, parents: seq<Score>, o: Options, n: nat, iter: nat,
               elite: seq<Vector>, draws: GenerationDraws)
    returns (children: seq<Vector>, ghost filled: seq<Vector>, ghost crossedCount: nat)
    requires Mapped(box, d)
    requires Dimensioned(parents, d) && (|parents| >= 1 || |elite| == n)
    requires |elite| <= n && forall i :: 0 <= i < |elite| ==> |elite[i]| == d
    requires d < 2 ==> o.crossover.pClassic <= 0.0
    requires o.maxIters > 0
    requires ValidGenerationDraws(draws, |parents|, n, d)
    ensures |children| == n && children[..|elite|] == elite
    ensures forall i :: 0 <= i < n ==> |children[i]| == d
    ensures |filled| == n && |elite| <= crossedCount <= n
    ensures forall i :: 0 <= i < n ==> |filled[i]| == d
    ensures forall i :: crossedCount <= i < n ==>
      draws.fills[i] < |parents| && filled[i] == parents[draws.fills[i]].x
    ensures forall i :: |elite| <= i < n ==>
      children[i] == MutateChild(box, d, filled[i], FineRange(o.mutation, iter, o.maxIters), o.mutation, draws.mutations[i])
    ensures (Ordered(box) && AllInBox(box, elite) && ScoresInBox(box, parents) &&
             o.crossover.pClassic + o.crossover.pLinear >= 1.0) ==> AllInBox(box, children)
  {
    ghost var confined := Ordered(box) && AllInBox(box, elite) && ScoresInBox(box, parents) &&
      o.crossover.pClassic + o.crossover.pLinear >= 1.0;
    var crossed := CrossoverPass(box, d, parents, o.crossover, n, elite, draws.crossovers);
    var fill := FillByCopy(parents, n, crossed, draws.fills);
    assert forall i :: 0 <= i < |crossed| ==> fill[i] == crossed[i];
    assert confined ==> AllInBox(box, fill);
    var width := FineRange(o.mutation, iter, o.maxIters);
    children := MutationPass(box, d, fill, |elite|, width, o.mutation, draws.mutations);
    assert fill[..|elite|] == elite;
    filled, crossedCount := fill, |crossed|;
  }

  /** `createChildren`: returns the next population and the rearranged
      permutation. The first `eliteChildrenCount` children are the individuals
      at the front of the partitioned permutation, unmutated, and one of them
      is the best of the population. The remaining slots are crossover
      children or parent copies, each put through the mutation stage. */
  method CreateChildren(box: Box, d: nat, scores: seq<Score>, parents: seq<Score>, scoreIdx: seq<nat>,
                        o: Options, iter: nat, draws: GenerationDraws)
    returns (children: seq<Vector>, order: seq<nat>, ghost filled: seq<Vector>, ghost crossedCount: nat)
    requires Mapped(box, d)
    requires Dimensioned(scores, d) && Dimensioned(parents, d)
    requires |parents| >= 1 || o.eliteChildrenCount == |scores|
    requires |scoreIdx| == |scores| && IsPermutation(scoreIdx, |scores|)
    requires o.eliteChildrenCount <= |scores|
    requires d < 2 ==> o.crossover.pClassic <= 0.0
    requires o.maxIters > 0
    requires ValidGenerationDraws(draws, |parents|, |scores|, d)
    ensures |children| == |scores|
    ensures forall i :: 0 <= i < |children| ==> |children[i]| == d
    ensures |order| == |scores| && Below(order, |scores|) && IsPermutation(order, |scores|)
    ensures o.eliteChildrenCount == 0 ==> order == scoreIdx
    ensures forall i :: 0 <= i < o.eliteChildrenCount ==> children[i] == scores[order[i]].x
    ensures forall i, j :: 0 <= i < o.eliteChildrenCount <= j < |scores| ==>
      scores[order[i]].value <= scores[order[j]].value
    ensures o.eliteChildrenCount >= 1 ==>
      exists i :: 0 <= i < o.eliteChildrenCount && NoneBelow(scores, scores[order[i]].value)
    ensures |filled| == |scores| && o.eliteChildrenCount <= crossedCount <= |scores|
    ensures forall i :: 0 <= i < |scores| ==> |filled[i]| == d
    ensures forall i :: crossedCount <= i < |scores| ==>
      draws.fills[i] < |parents| && filled[i] == parents[draws.fills[i]].x
    ensures forall i :: o.eliteChildrenCount <= i < |scores| ==>
      children[i] == MutateChild(box, d, filled[i], FineRange(o.mutation, iter, o.maxIters), o.mutation, draws.mutations[i])
    ensures (Ordered(box) && ScoresInBox(box, scores) && ScoresInBox(box, parents) &&
             o.crossover.pClassic + o.crossover.pLinear >= 1.0) ==> AllInBox(box, children)
  {
    var k := o.eliteChildrenCount;
    var elite;
    order, elite := SelectElite(scores, scoreIdx, k);
    assert ScoresInBox(box, scores) ==> AllInBox(box, elite);
    children, filled, crossedCount := Breed(box, d, parents, o, |scores|, iter, elite, draws);
    assert forall i :: 0 <= i < k ==> children[i] == children[..k][i];
  }
}

=== FILE: bounds.dfy ===
/**
 The bounded vector space: per-dimension bounds and the affine map from the
 normalised range [-1, 1] onto [xMin[i], xMax[i]] that the constructor
 precomputes (`offsetX`, `scaleX`).
 */
module Bounds {
  import opened Vectors

  /** The box and its derived map; `offset` is the midpoint, `scale` the half-width. */
  datatype Box = Box(xMin: Vector, xMax: Vector, offset: Vector, scale: Vector)

  /** All four vectors have the run's dimension. */
  predicate Shaped(box: Box, d: nat) {
    |box.xMin| == d && |box.xMax| == d && |box.offset| == d && |box.scale| == d
  }

  /** Every lower bound is at most its upper bound. */
  predicate Ordered(box: Box) {
    |box.xMin| == |box.xMax| &&
    forall i :: 0 <= i < |box.xMin| ==> box.xMin[i] <= box.xMax[i]
  }

  /** `v` lies inside the box in every dimension. */
  predicate InBox(box: Box, v: Vector) {
    |v| == |box.xMin| == |box.xMax| &&
    forall i :: 0 <= i < |v| ==> box.xMin[i] <= v[i] <= box.xMax[i]
  }

  /** The map precomputed once per engine: offset and scale send -1 to the
      lower bound and +1 to the upper bound of every dimension. */
  function MakeBox(d: nat, xMin: Vector, xMax: Vector): (box: Box)
    requires |xMin| == d && |xMax| == d
    ensures Shaped(box, d)
    ensures box.xMin == xMin && box.xMax == xMax
    ensures forall i :: 0 <= i < d ==>
      box.offset[i] - box.scale[i] == xMin[i] && box.offset[i] + box.scale[i] == xMax[i]
  {
    Box(xMin, xMax,
        seq(d, i requires 0 <= i < d => 0.5 * (xMin[i] + xMax[i])),
        seq(d, i requires 0 <= i < d => 0.5 * (xMax[i] - xMin[i])))
  }

  /** A box whose offset and scale are the ones `MakeBox` computes. */
  predicate Mapped(box: Box, d: nat) {
    Shaped(box, d) &&
    forall i :: 0 <= i < d ==>
      box.offset[i] == 0.5 * (box.xMin[i] + box.xMax[i]) &&
      box.scale[i] == 0.5 * (box.xMax[i] - box.xMin[i])
  }

  lemma MakeBoxIsMapped(d: nat, xMin: Vector, xMax: Vector)
    requires |xMin| == d && |xMax| == d
    ensures Mapped(MakeBox(d, xMin, xMax), d)
  {
  }

  /** `offset + scale * u`: the gene a normalised draw `u` stands for. */
  function Denormalize(box: Box, i: nat, u: real): real
    requires i < |box.offset| && i < |box.scale|
  {
    box.offset[i] + box.scale[i] * u
  }

  /** The inverse map, defined where the dimension is not degenerate. */
  function Normalize(box: Box, i: nat, v: real): real
    requires i < |box.offset| && i < |box.scale|
    requires box.scale[i] != 0.0
  {
    (v - box.offset[i]) / box.scale[i]
  }

  /** The map hits the bounds exactly at the endpoints of [-1, 1]. */
  lemma DenormalizeEndpoints(box: Box, d: nat, i: nat)
    requires Mapped(box, d) && i < d
    ensures Denormalize(box, i, -1.0) == box.xMin[i]
    ensures Denormalize(box, i, 1.0) == box.xMax[i]
  {
  }

  /** Any normalised draw in [-1, 1] lands inside the dimension's bounds. */
  lemma DenormalizeInBounds(box: Box, d: nat, i: nat, u: real)
    requires Mapped(box, d) && i < d
    requires box.xMin[i] <= box.xMax[i]
    requires -1.0 <= u <= 1.0
    ensures box.xMin[i] <= Denormalize(box, i, u) <= box.xMax[i]
  {
    var o, s := box.offset[i], box.scale[i];
    assert o - s == box.xMin[i] && o + s == box.xMax[i];
    assert s >= 0.0;
    var t := s * u;
    if u >= 0.0 {
      FractionOfNonNegative(u, s, u * s);
      assert t == u * s;
    } else {
      var w := -u * s;
      FractionOfNonNegative(-u, s, w);
      assert t == -w;
    }
    assert Denormalize(box, i, u) == o + t;
  }

  /** The map is a bijection between [-1, 1] and a non-degenerate
      dimension: normalising after denormalising returns the draw, and
      denormalising after normalising returns the gene. */
  lemma NormalizeRoundTrip(box: Box, d: nat, i: nat, u: real, v: real)
    requires Mapped(box, d) && i < d
    requires box.scale[i] != 0.0
    ensures Normalize(box, i, Denormalize(box, i, u)) == u
    ensures Denormalize(box, i, Normalize(box, i, v)) == v
  {
  }
}

=== FILE: crossover.dfy ===
/**
 The three crossover operators: classic (single split point), linear
 (a point on the segment between the parents) and heuristic (a step from the
 worse parent towards, and possibly past, the better one).
 */
module Crossover {
  import opened Vectors
  import opened Bounds
  import opened Draws

  /** `a` up to the split, `b` from the split on. */
  function Splice(a: Vector, b: Vector, k: nat): Vector
    requires |a| == |b| && k <= |a|
  {
    a[..k] + b[k..]
  }

  /** `classicCrossover`: the children start as copies of the parents and
      exchange every gene from the split index `k` onwards. */
  method ClassicCrossover(parent0: Score, parent1: Score, k: nat) returns (child0: Vector, child1: Vector)
    requires |parent0.x| == |parent1.x|
    requires IsSplit(k, |parent0.x|)
    ensures |child0| == |parent0.x| && |child1| == |parent0.x|
    ensures forall i :: 0 <= i < k ==> child0[i] == parent0.x[i] && child1[i] == parent1.x[i]
    ensures forall i :: k <= i < |child0| ==> child0[i] == parent1.x[i] && child1[i] == parent0.x[i]
    ensures child0 == Splice(parent0.x, parent1.x, k) && child1 == Splice(parent1.x, parent0.x, k)
  {
    var n := |parent0.x|;
    child0 := parent0.x;
    child1 := parent1.x;
    var i := 0;
    while i < k
      invariant i <= k
      invariant child0 == parent0.x && child1 == parent1.x
    {
      child0 := child0[i := parent0.x[i]];
      child1 := child1[i := parent1.x[i]];
      i := i + 1;
    }
    while i < n
      invariant k <= i <= n
      invariant |child0| == n && |child1| == n
      invariant forall j :: 0 <= j < n ==>
        child0[j] == (if k <= j < i then parent1.x[j] else parent0.x[j]) &&
        child1[j] == (if k <= j < i then parent0.x[j] else parent1.x[j])
    {
      child0 := child0[i := parent1.x[i]];
      child1 := child1[i := parent0.x[i]];
      i := i + 1;
    }
    assert child0 == Splice(parent0.x, parent1.x, k);
    assert child1 == Splice(parent1.x, parent0.x, k);
  }

  /** Classic crossover loses no gene: at every index the two children hold
      the two parents' genes, and crossing the children again at the same
      split gives the parents back. */
  lemma SpliceIsRecombination(a: Vector, b: Vector, k: nat)
    requires |a| == |b| && k <= |a|
    ensures forall i :: 0 <= i < |a| ==>
      multiset{Splice(a, b, k)[i], Splice(b, a, k)[i]} == multiset{a[i], b[i]}
    ensures Splice(Splice(a, b, k), Splice(b, a, k), k) == a
    ensures Splice(Splice(b, a, k), Splice(a, b, k), k) == b
  {
    var c0, c1 := Splice(a, b, k), Splice(b, a, k);
    assert forall i :: 0 <= i < k ==> c0[i] == a[i] && c1[i] == b[i];
    assert forall i :: k <= i < |a| ==> c0[i] == b[i] && c1[i] == a[i];
    assert Splice(c0, c1, k) == a;
    assert Splice(c1, c0, k) == b;
  }

  /** A spliced child takes every gene from one of the parents, so it stays
      inside any box that holds both. */
  lemma SpliceStaysInBox(box: Box, a: Vector, b: Vector, k: nat)
    requires |a| == |b| && k <= |a|
    requires InBox(box, a) && InBox(box, b)
    ensures InBox(box, Splice(a, b, k))
  {
    var c := Splice(a, b, k);
    forall i | 0 <= i < |c|
      ensures box.xMin[i] <= c[i] <= box.xMax[i]
    {
      if i < k {
        assert c[i] == a[i];
      } else {
        assert c[i] == b[i];
      }
    }
  }

  /** `linearCrossover`: `(1 - alpha) * parent0 + alpha * parent1`. */
  function LinearCrossover(parent0: Score, parent1: Score, alpha: real): Vector
    requires |parent0.x| == |parent1.x|
  {
    Blend(parent0.x, parent1.x, alpha)
  }

  /** Linear crossover reproduces parent0 at 0 and parent1 at 1, gives the
      same child with the parents swapped and the weight mirrored, and for a
      weight in [0, 1] keeps every coordinate between the parents', hence
      inside any box that holds both parents. */
  lemma LinearCrossoverStaysBetween(box: Box, parent0: Score, parent1: Score, alpha: real)
    requires |parent0.x| == |parent1.x|
    requires 0.0 <= alpha <= 1.0
    ensures LinearCrossover(parent0, parent1, 0.0) == parent0.x
    ensures LinearCrossover(parent0, parent1, 1.0) == parent1.x
    ensures LinearCrossover(parent0, parent1, alpha) == LinearCrossover(parent1, parent0, 1.0 - alpha)
    ensures forall i :: 0 <= i < |parent0.x| ==>
      Between(LinearCrossover(parent0, parent1, alpha)[i], parent0.x[i], parent1.x[i])
    ensures InBox(box, parent0.x) && InBox(box, parent1.x) ==>
      InBox(box, LinearCrossover(parent0, parent1, alpha))
  {
    BlendEndpoints(parent0.x, parent1.x);
    BlendSymmetric(parent0.x, parent1.x, alpha);
    BlendBetween(parent0.x, parent1.x, alpha);
  }

  /** The parent with the larger fitness; on a tie, parent1. */
  function Worse(parent0: Score, parent1: Score): (w: Score)
    ensures w == parent0 || w == parent1
    ensures w.value >= parent0.value && w.value >= parent1.value
    ensures parent0.value == parent1.value ==> w == parent1
  {
    if parent0.value > parent1.value then parent0 else parent1
  }

  /** The other parent: the smaller fitness; on a tie, parent0. */
  function Better(parent0: Score, parent1: Score): (b: Score)
    ensures b == parent0 || b == parent1
    ensures b.value <= parent0.value && b.value <= parent1.value
    ensures parent0.value == parent1.value ==> b == parent0
    ensures multiset{b, Worse(parent0, parent1)} == multiset{parent0, parent1}
  {
    if parent0.value > parent1.value then parent1 else parent0
  }

  /** `heuristicCrossover`: a linear blend whose first operand is the worse
      parent, so that growing `alpha` moves towards the better one. */
  function HeuristicCrossover(parent0: Score, parent1: Score, alpha: real): Vector
    requires |parent0.x| == |parent1.x|
  {
    if parent0.value > parent1.value then
      Blend(parent0.x, parent1.x, alpha)
    else
      Blend(parent1.x, parent0.x, alpha)
  }

  /** Heuristic crossover is linear crossover from the worse to the better
      parent: `alpha = 0` yields the worse parent (parent1 on a tie),
      `alpha = 1` the better one, and every coordinate moves from the worse
      parent's along the worse-to-better difference. */
  lemma HeuristicCrossoverDirection(parent0: Score, parent1: Score, alpha: real)
    requires |parent0.x| == |parent1.x|
    ensures
      var w, b := Worse(parent0, parent1), Better(parent0, parent1);
      && HeuristicCrossover(parent0, parent1, alpha) == LinearCrossover(w, b, alpha)
      && HeuristicCrossover(parent0, parent1, 0.0) == w.x
      && HeuristicCrossover(parent0, parent1, 1.0) == b.x
      && forall i :: 0 <= i < |parent0.x| ==>
           HeuristicCrossover(parent0, parent1, alpha)[i] == b.x[i] + (alpha - 1.0) * (b.x[i] - w.x[i])
  {
    var w, b := Worse(parent0, parent1), Better(parent0, parent1);
    BlendEndpoints(w.x, b.x);
    var r := HeuristicCrossover(parent0, parent1, alpha);
    forall i | 0 <= i < |parent0.x|
      ensures r[i] == b.x[i] + (alpha - 1.0) * (b.x[i] - w.x[i])
    {
      assert r[i] == w.x[i] + alpha * (b.x[i] - w.x[i]);
    }
  }

  /** Heuristic crossover does not clamp: with both parents inside [0, 1]
      and the multiplier-scaled weight 1.5 (probability draw 0.75 times the
      default multiplier 2), the child lands at 1.5, outside the box. */
  lemma HeuristicCrossoverMayLeaveBox()
    ensures
      var box := MakeBox(1, [0.0], [1.0]);
      var p0, p1 := Score([0.0], 1.0), Score([1.0], 0.0);
      && InBox(box, p0.x) && InBox(box, p1.x)
      && IsProbability(0.75)
      && HeuristicCrossover(p0, p1, 0.75 * 2.0) == [1.5]
      && !InBox(box, HeuristicCrossover(p0, p1, 0.75 * 2.0))
  {
    var p0, p1 := Score([0.0], 1.0), Score([1.0], 0.0);
    assert HeuristicCrossover(p0, p1, 1.5)[0] == 1.5;
  }
}

=== FILE: draws.dfy ===
/**
 The random channels of the engine, reduced to the ranges their generators
 promise. Every random value the engine consumes is an argument of the model,
 constrained by one of these predicates.

 `std::uniform_real_distribution` draws from a half-open interval, so a
 probability draw is in [0, 1) and a mutation draw in [-1, 1).
 */
module Draws {

  /** `getProbability()`: `uniform_real_distribution(0, 1)`. */
  predicate IsProbability(p: real) {
    0.0 <= p < 1.0
  }

  /** `getMutation()`: `uniform_real_distribution(-1, 1)`. */
  predicate IsSignedUnit(u: real) {
    -1.0 <= u < 1.0
  }

  /** `getCrossoverIdx()`: `uniform_int_distribution(1, vectorSize - 1)`;
      the range is empty when the dimension is below 2. */
  predicate IsSplit(k: nat, d: nat) {
    1 <= k <= d - 1
  }

  /** Upper end of the integer distribution the tournament shuffle draws from. */
  const IndexDrawMax: nat := 137137137

  /** A draw of the tournament's `idxRng(0, 137137137)`. */
  predicate IsIndexDraw(r: nat) {
    r <= IndexDrawMax
  }

  /** A draw of the assembler's `idxRng(0, PARENT_COUNT - 1)`. */
  predicate IsParentDraw(r: nat, parentCount: nat) {
    r < parentCount
  }

  predicate AllProbabilities(ps: seq<real>) {
    forall i :: 0 <= i < |ps| ==> IsProbability(ps[i])
  }

  predicate AllSignedUnits(us: seq<real>) {
    forall i :: 0 <= i < |us| ==> IsSignedUnit(us[i])
  }
}

=== FILE: engine.dfy ===
/**
 `run`: sanitise the options, seed the first population, then per iteration
 evaluate, select parents and create children, and evaluate once more at the
 end. The best fitness seen is tracked across all evaluations.
 */
module Engine {
  import opened Vectors
  import opened Bounds
  import opened Draws
  import opened Config
  import opened Mutation
  import opened Selection
  import opened Assembly

  /** The starting value of the best fitness. */
  const InitialBest: real := 1.0e99

  /** The best-so-far record: fitness, its index in the generation where it
      was found, and the vector that achieved it. */
  datatype Tracker = Tracker(bestScore: real, bestIdx: nat, bestX: Vector)

  const Initial: Tracker := Tracker(InitialBest, 0, [])

  /** The bookkeeping of `calculateScores` over one generation, in index
      order: an individual replaces the best so far only when strictly
      better. */
  function Track(t: Tracker, scores: seq<Score>): (u: Tracker)
    ensures u.bestScore <= t.bestScore
    ensures forall j :: 0 <= j < |scores| ==> u.bestScore <= scores[j].value
    ensures u.bestScore == t.bestScore ==> u == t
    ensures u.bestScore < t.bestScore ==>
      && u.bestIdx < |scores|
      && scores[u.bestIdx] == Score(u.bestX, u.bestScore)
      && forall j :: 0 <= j < u.bestIdx ==> u.bestScore < scores[j].value
  {
    if |scores| == 0 then t
    else
      var u := Track(t, scores[..|scores| - 1]);
      var last := scores[|scores| - 1];
      if last.value < u.bestScore then Tracker(last.value, |scores| - 1, last.x) else u
  }

  /** `calculateScores`: every individual is evaluated, in order, and the
      best-so-far record is updated along the way. */
  method CalculateScores(population: seq<Vector>, f: Vector -> real, t: Tracker)
    returns (scores: seq<Score>, u: Tracker)
    ensures |scores| == |population|
    ensures forall j :: 0 <= j < |scores| ==> scores[j].x == population[j]
    ensures Evaluated(scores, f)
    ensures u == Track(t, scores)
  {
    scores := [];
    u := t;
    var j := 0;
    while j < |population|
      invariant 0 <= j <= |population| && |scores| == j
      invariant forall q :: 0 <= q < j ==> scores[q] == Score(population[q], f(population[q]))
      invariant u == Track(t, scores)
    {
      var s := Score(population[j], f(population[j]));
      assert (scores + [s])[..j] == scores;
      if s.value < u.bestScore {
        u := Tracker(s.value, j, s.x);
      }
      scores := scores + [s];
      j := j + 1;
    }
  }

  /** Some generation in `history` holds an individual with vector `x` and
      fitness `score`. */
  ghost predicate AttainedBy(x: Vector, score: real, history: seq<seq<Score>>) {
    exists g, j :: 0 <= g < |history| && 0 <= j < |history[g]| && history[g][j] == Score(x, score)
  }

  /** Appending a generation keeps the tracked best attained. */
  lemma AttainedStep(t: Tracker, history: seq<seq<Score>>, scores: seq<Score>)
    requires t.bestScore < InitialBest ==> AttainedBy(t.bestX, t.bestScore, history)
    ensures var u := Track(t, scores);
      u.bestScore < InitialBest ==> AttainedBy(u.bestX, u.bestScore, history + [scores])
  {
    var u := Track(t, scores);
    var next := history + [scores];
    if u.bestScore < t.bestScore {
      assert next[|history|][u.bestIdx] == Score(u.bestX, u.bestScore);
    } else if u.bestScore < InitialBest {
      var g, j :| 0 <= g < |history| && 0 <= j < |history[g]| && history[g][j] == Score(t.bestX, t.bestScore);
      assert next[g][j] == Score(u.bestX, u.bestScore);
    }
  }

  /** The solution as written: the vector at `bestIdx` of the final
      generation, whichever generation `bestIdx` was recorded in. */
  function SolutionAsWritten(t: Tracker, last: seq<Score>): Vector
    requires t.bestIdx < |last|
  {
    last[t.bestIdx].x
  }

  /** The solution as intended: the vector that achieved the best fitness;
      the final generation's entry only when nothing beat the initial value. */
  function Solution(t: Tracker, last: seq<Score>): Vector
    requires t.bestIdx < |last|
  {
    if t.bestScore < InitialBest then t.bestX else last[t.bestIdx].x
  }

  /** With f(x) = x + 1, a first generation [0] (fitness 1) and a second
      generation [4] (fitness 5), the best fitness 1 was found at index 0 of
      the first generation; the solution as written is [4], whose fitness is
      5, while the intended solution [0] has fitness 1. */
  lemma SolutionAsWrittenMisses()
    ensures
      var f := (v: Vector) => if |v| == 0 then 0.0 else v[0] + 1.0;
      var gen0, gen1 := [Score([0.0], 1.0)], [Score([4.0], 5.0)];
      var t := Track(Track(Initial, gen0), gen1);
      && Evaluated(gen0, f) && Evaluated(gen1, f)
      && t.bestScore == 1.0 && t.bestIdx == 0
      && SolutionAsWritten(t, gen1) == [4.0]
      && f(SolutionAsWritten(t, gen1)) == 5.0 != t.bestScore
      && Solution(t, gen1) == [0.0]
      && f(Solution(t, gen1)) == t.bestScore
  {
    var gen0, gen1 := [Score([0.0], 1.0)], [Score([4.0], 5.0)];
    assert gen0[..0] == [] && gen1[..0] == [];
    var t0 := Track(Initial, gen0);
    assert t0 == Tracker(1.0, 0, [0.0]);
    assert Track(t0, gen1) == t0;
  }

  /** The best individual of `prev` survives into the vectors of `next`. */
  ghost predicate BestSurvives(prev: seq<Score>, next: seq<Vector>) {
    exists m :: 0 <= m < |prev| && NoneBelow(prev, prev[m].value) && prev[m].x in next
  }

  /** The best fitness of `next` is no worse than that of `prev`. */
  ghost predicate NoWorseBest(prev: seq<Score>, next: seq<Score>) {
    exists j :: 0 <= j < |next| && NoneBelow(prev, next[j].value)
  }

  /** Evaluating a generation into which the previous best survived cannot
      make the best fitness worse. */
  lemma SurvivorKeepsBest(prev: seq<Score>, population: seq<Vector>, next: seq<Score>, f: Vector -> real)
    requires Evaluated(prev, f) && Evaluated(next, f)
    requires |next| == |population| && forall j :: 0 <= j < |next| ==> next[j].x == population[j]
    requires BestSurvives(prev, population)
    ensures NoWorseBest(prev, next)
  {
    var m :| 0 <= m < |prev| && NoneBelow(prev, prev[m].value) && prev[m].x in population;
    var j :| 0 <= j < |population| && population[j] == prev[m].x;
    assert next[j].value == f(prev[m].x) == prev[m].value;
  }

  /** `order` is a permutation of the indices of `prev` whose first `k`
      entries index individuals no worse than any of the rest. */
  ghost predicate FrontOf(prev: seq<Score>, order: seq<nat>, k: nat) {
    && |order| == |prev| && Below(order, |prev|) && IsPermutation(order, |prev|)
    && (forall i, j :: 0 <= i < k <= j < |prev| ==> prev[order[i]].value <= prev[order[j]].value)
  }

  /** The first `k` vectors of `next` are those of `k` individuals of `prev`
      that a permutation puts ahead of every other individual, none of them
      worse than any of the rest: the `k` best of `prev` open `next`. */
  ghost predicate EliteInFront(prev: seq<Score>, next: seq<Vector>, k: nat) {
    && k <= |prev| && k <= |next|
    && exists order: seq<nat> :: FrontOf(prev, order, k) && forall i :: 0 <= i < k ==> next[i] == prev[order[i]].x
  }

  /** The evaluated form of `EliteInFront`: the first `k` individuals of
      `next` are the `k` best of `prev`, fitness included. */
  ghost predicate EliteKept(prev: seq<Score>, next: seq<Score>, k: nat) {
    && k <= |prev| && k <= |next|
    && exists order: seq<nat> :: FrontOf(prev, order, k) && forall i :: 0 <= i < k ==> next[i] == prev[order[i]]
  }

  /** Evaluating a generation that opens with the previous `k` best gives
      them back their fitness. */
  lemma EliteSurvivesEvaluation(prev: seq<Score>, population: seq<Vector>, next: seq<Score>, f: Vector -> real, k: nat)
    requires Evaluated(prev, f) && Evaluated(next, f)
    requires |next| == |population| && forall j :: 0 <= j < |next| ==> next[j].x == population[j]
    requires EliteInFront(prev, population, k)
    ensures EliteKept(prev, next, k)
  {
    var order: seq<nat> :| FrontOf(prev, order, k) && forall i :: 0 <= i < k ==> population[i] == prev[order[i]].x;
    forall i | 0 <= i < k
      ensures next[i] == prev[order[i]]
    {
      assert next[i].value == f(population[i]) == prev[order[i]].value;
    }
  }

  /** The indices of the individuals of `s` whose fitness is at most `t`. */
  ghost function AtMost(s: seq<Score>, t: real): set<nat> {
    set j: nat | j < |s| && s[j].value <= t
  }

  function Min(a: nat, b: nat): nat {
    if a <= b then a else b
  }

  /** The front positions whose individual has fitness at most `t`. */
  ghost function FrontAtMost(prev: seq<Score>, order: seq<nat>, k: nat, t: real): set<nat>
    requires Below(order, |prev|)
  {
    set i: nat | i < k && i < |order| && prev[order[i]].value <= t
  }

  /** When the `k` best survive, no fitness level loses ground among the
      best `k`: for every threshold `t`, the next generation has at least as
      many individuals at or below `t` as the previous one, up to `k`.
      Equivalently, the `i`-th best fitness of `next` is no worse than the
      `i`-th best of `prev` for every `i <= k`. */
  lemma BestCountKept(prev: seq<Score>, next: seq<Score>, k: nat, t: real)
    requires EliteKept(prev, next, k)
    ensures |AtMost(next, t)| >= Min(k, |AtMost(prev, t)|)
  {
    var order: seq<nat> :| FrontOf(prev, order, k) && forall i :: 0 <= i < k ==> next[i] == prev[order[i]];
    var front := FrontAtMost(prev, order, k, t);
    assert front <= AtMost(next, t);
    SubsetSize(front, AtMost(next, t));
    if exists e :: 0 <= e < k && prev[order[e]].value > t {
      var e :| 0 <= e < k && prev[order[e]].value > t;
      FrontHoldsEveryBelow(prev, order, k, t, e);
    } else {
      FrontAllBelow(prev, order, k, t);
    }
  }

  /** If some front individual is above `t`, every individual at or below
      `t` is in the front. */
  lemma FrontHoldsEveryBelow(prev: seq<Score>, order: seq<nat>, k: nat, t: real, e: nat)
    requires FrontOf(prev, order, k) && k <= |prev|
    requires e < k && prev[order[e]].value > t
    ensures |FrontAtMost(prev, order, k, t)| >= |AtMost(prev, t)|
  {
    PermutationFacts(order, |prev|);
    var front := FrontAtMost(prev, order, k, t);
    forall j | j in AtMost(prev, t)
      ensures j in Image(front, order)
    {
      assert j in order;
      var q :| 0 <= q < |order| && order[q] == j;
      assert q in front;
    }
    SubsetSize(AtMost(prev, t), Image(front, order));
    ImageNoLarger(front, order);
  }

  /** If every front individual is at or below `t`, all `k` of them count. */
  lemma FrontAllBelow(prev: seq<Score>, order: seq<nat>, k: nat, t: real)
    requires FrontOf(prev, order, k) && k <= |prev|
    requires forall e :: 0 <= e < k ==> prev[order[e]].value <= t
    ensures |FrontAtMost(prev, order, k, t)| >= k
  {
    var front := FrontAtMost(prev, order, k, t);
    forall i | i in Indices(k)
      ensures i in front
    {
      var q :| 0 <= q < k && Iota(k)[q] == i;
    }
    SubsetSize(Indices(k), front);
    IndicesSize(k);
  }

  lemma SubsetSize(a: set<nat>, b: set<nat>)
    requires a <= b
    ensures |a| <= |b|
  {
    assert b == a + (b - a);
  }

  /** The image of `a` under `g`. */
  ghost function Image(a: set<nat>, g: seq<nat>): set<nat>
    requires forall x :: x in a ==> x < |g|
  {
    set x | x in a :: g[x]
  }

  /** Mapping a set through a sequence never makes it larger. */
  lemma ImageNoLarger(a: set<nat>, g: seq<nat>)
    requires forall x :: x in a ==> x < |g|
    ensures |Image(a, g)| <= |a|
    decreases |a|
  {
    if a != {} {
      var x :| x in a;
      var rest := a - {x};
      ImageNoLarger(rest, g);
      assert Image(a, g) == Image(rest, g) + {g[x]};
    }
  }

  /** The set `{0, .., k - 1}`. */
  ghost function Indices(k: nat): set<nat> {
    set i | i in Iota(k)
  }

  /** `{0, .., k - 1}` has `k` elements. */
  lemma IndicesSize(k: nat)
    ensures |Indices(k)| == k
  {
    if k > 0 {
      IndicesSize(k - 1);
      assert Iota(k) == Iota(k - 1) + [k - 1];
      assert k - 1 !in Iota(k - 1);
      assert Indices(k) == Indices(k - 1) + {k - 1};
    }
  }

  /** Options a run can execute: a population to evaluate, and, when any
      generation is created, an elite no larger than the population, parents
      to copy unless the elite fills every slot, and, when there are
      tournaments, a tournament size that fits the population. */
  predicate Runnable(o: Options) {
    && o.populationCount >= 1
    && (o.maxIters > 0 ==>
          && o.eliteChildrenCount <= o.populationCount
          && (o.parentsCount >= 1 || o.eliteChildrenCount == o.populationCount)
          && (o.parentsCount >= 1 ==> 1 <= o.tournament.size <= o.populationCount))
  }

  /** The draws of one generation: one tournament per parent, then those of
      `createChildren`. */
  datatype GenerationStep = GenerationStep(tournaments: seq<TournamentDraw>, children: GenerationDraws)

  /** All draws of a run: the first population's mutation draws, then one
      set per iteration. */
  datatype RunDraws = RunDraws(seed: seq<seq<real>>, steps: seq<GenerationStep>)

  predicate ValidStep(s: GenerationStep, o: Options, d: nat) {
    && |s.tournaments| == o.parentsCount
    && (forall t :: 0 <= t < o.parentsCount ==>
          o.tournament.size >= 0 && ValidTournamentDraw(s.tournaments[t], o.tournament.size as nat))
    && ValidGenerationDraws(s.children, o.parentsCount, o.populationCount, d)
  }

  predicate ValidRunDraws(r: RunDraws, o: Options, d: nat) {
    && |r.seed| == o.populationCount
    && (forall i :: 0 <= i < |r.seed| ==> |r.seed[i]| == d && AllSignedUnits(r.seed[i]))
    && |r.steps| == o.maxIters
    && (forall g :: 0 <= g < o.maxIters ==> ValidStep(r.steps[g], o, d))
  }

  /** One iteration after evaluation: tournaments pick the parents, then the
      children become the next population. */
  method Generation(box: Box, d: nat, o: Options, scores: seq<Score>, scoreIdx: seq<nat>, iter: nat,
                    step: GenerationStep)
    returns (population: seq<Vector>, nextIdx: seq<nat>)
    requires Mapped(box, d) && Runnable(o) && o.maxIters > 0
    requires d < 2 ==> o.crossover.pClassic <= 0.0
    requires |scores| == o.populationCount && Dimensioned(scores, d)
    requires IsPermutation(scoreIdx, |scoreIdx|)
    requires ValidStep(step, o, d)
    ensures |population| == |scores| && forall j :: 0 <= j < |population| ==> |population[j]| == d
    ensures IsPermutation(nextIdx, |nextIdx|) && |nextIdx| == |scores|
    ensures o.eliteChildrenCount >= 1 ==> BestSurvives(scores, population)
    ensures EliteInFront(scores, population, o.eliteChildrenCount)
    ensures (Ordered(box) && ScoresInBox(box, scores) && o.crossover.pClassic + o.crossover.pLinear >= 1.0) ==>
      AllInBox(box, population)
  {
    // The size is only consulted by tournaments, and with any of them it is
    // between 1 and the population count.
    var size: nat := if o.tournament.size >= 0 then o.tournament.size as nat else 0;
    var parents, winners, shuffled := SelectParents(scores, scoreIdx, o.parentsCount, size,
                                                    o.tournament.p, step.tournaments);
    PermutationFacts(shuffled, |scores|);
    assert ScoresInBox(box, scores) ==> ScoresInBox(box, parents);
    assert Dimensioned(parents, d);
    var order;
    ghost var filled, crossedCount;
    population, order, filled, crossedCount := CreateChildren(box, d, scores, parents, shuffled, o, iter, step.children);
    nextIdx := order;
    assert FrontOf(scores, order, o.eliteChildrenCount);
    assert forall i :: 0 <= i < o.eliteChildrenCount ==> population[i] == scores[order[i]].x;
    if o.eliteChildrenCount >= 1 {
      ghost var i :| 0 <= i < o.eliteChildrenCount && NoneBelow(scores, scores[order[i]].value);
      assert population[i] == scores[order[i]].x;
    }
  }

  /** Every recorded generation has `n` individuals, each scored by `f`. */
  ghost predicate Recorded(history: seq<seq<Score>>, f: Vector -> real, n: nat) {
    forall g :: 0 <= g < |history| ==> |history[g]| == n && Evaluated(history[g], f)
  }

  /** The tracked fitness is a lower bound of every recorded fitness and,
      once below the initial value, is attained by a recorded individual. */
  ghost predicate Bounded(t: Tracker, history: seq<seq<Score>>) {
    && t.bestScore <= InitialBest
    && (forall g, j :: 0 <= g < |history| && 0 <= j < |history[g]| ==> t.bestScore <= history[g][j].value)
    && (t.bestScore < InitialBest ==> AttainedBy(t.bestX, t.bestScore, history))
  }

  /** The best fitness never gets worse from one generation to the next. */
  ghost predicate Monotone(history: seq<seq<Score>>) {
    forall g :: 0 <= g < |history| - 1 ==> NoWorseBest(history[g], history[g + 1])
  }

  /** Every generation opens with the `k` best of the one before. */
  ghost predicate ElitesKept(history: seq<seq<Score>>, k: nat) {
    forall g :: 0 <= g < |history| - 1 ==> EliteKept(history[g], history[g + 1], k)
  }

  ghost predicate HistoryInBox(box: Box, history: seq<seq<Score>>) {
    forall g :: 0 <= g < |history| ==> ScoresInBox(box, history[g])
  }

  /** What elitism carries from the last recorded generation into the
      current population: with an elite the best fitness never worsened and
      the best vector survives, and in every case each generation opens with
      the `k` best of the one before. */
  ghost predicate Carried(history: seq<seq<Score>>, population: seq<Vector>, elite: bool, k: nat) {
    && (elite ==> Monotone(history) && (|history| >= 1 ==> BestSurvives(history[|history| - 1], population)))
    && ElitesKept(history, k)
    && (|history| >= 1 ==> EliteInFront(history[|history| - 1], population, k))
  }

  /** Evaluating a population extends the elitist guarantees to the history
      that records it. */
  lemma CarriedStep(history: seq<seq<Score>>, population: seq<Vector>, scores: seq<Score>, f: Vector -> real,
                    n: nat, elite: bool, k: nat)
    requires Recorded(history, f, n) && Evaluated(scores, f)
    requires |scores| == |population| && forall j :: 0 <= j < |scores| ==> scores[j].x == population[j]
    requires Carried(history, population, elite, k)
    ensures elite ==> Monotone(history + [scores])
    ensures ElitesKept(history + [scores], k)
  {
    if elite {
      MonotoneStep(history, population, scores, f, n);
    }
    ElitesKeptStep(history, population, scores, f, n, k);
  }

  lemma MonotoneStep(history: seq<seq<Score>>, population: seq<Vector>, scores: seq<Score>, f: Vector -> real, n: nat)
    requires Recorded(history, f, n) && Evaluated(scores, f)
    requires |scores| == |population| && forall j :: 0 <= j < |scores| ==> scores[j].x == population[j]
    requires Monotone(history) && (|history| >= 1 ==> BestSurvives(history[|history| - 1], population))
    ensures Monotone(history + [scores])
  {
    var next := history + [scores];
    forall g | 0 <= g < |next| - 1
      ensures NoWorseBest(next[g], next[g + 1])
    {
      if g < |history| - 1 {
        assert next[g] == history[g] && next[g + 1] == history[g + 1];
      } else {
        assert next[g] == history[|history| - 1] && next[g + 1] == scores;
        SurvivorKeepsBest(history[|history| - 1], population, scores, f);
      }
    }
  }

  lemma ElitesKeptStep(history: seq<seq<Score>>, population: seq<Vector>, scores: seq<Score>, f: Vector -> real,
                       n: nat, k: nat)
    requires Recorded(history, f, n) && Evaluated(scores, f)
    requires |scores| == |population| && forall j :: 0 <= j < |scores| ==> scores[j].x == population[j]
    requires ElitesKept(history, k) && (|history| >= 1 ==> EliteInFront(history[|history| - 1], population, k))
    ensures ElitesKept(history + [scores], k)
  {
    var next := history + [scores];
    forall g | 0 <= g < |next| - 1
      ensures EliteKept(next[g], next[g + 1], k)
    {
      if g < |history| - 1 {
        assert next[g] == history[g] && next[g + 1] == history[g + 1];
      } else {
        assert next[g] == history[|history| - 1] && next[g + 1] == scores;
        EliteSurvivesEvaluation(history[|history| - 1], population, scores, f, k);
      }
    }
  }

  /** One call of `calculateScores` together with the callback's snapshot:
      the new generation is appended to the history and the tracker's
      guarantees extend to it. */
  method Record(population: seq<Vector>, f: Vector -> real, t: Tracker, history: seq<seq<Score>>, n: nat,
                ghost elite: bool, ghost k: nat, ghost box: Box, ghost confined: bool)
    returns (scores: seq<Score>, u: Tracker, next: seq<seq<Score>>)
    requires |population| == n && Recorded(history, f, n) && Bounded(t, history)
    requires Carried(history, population, elite, k)
    requires confined ==> AllInBox(box, population) && HistoryInBox(box, history)
    ensures |scores| == n && forall j :: 0 <= j < n ==> scores[j].x == population[j]
    ensures u == Track(t, scores) && next == history + [scores]
    ensures Recorded(next, f, n) && Bounded(u, next)
    ensures elite ==> Monotone(next)
    ensures ElitesKept(next, k)
    ensures confined ==> HistoryInBox(box, next)
  {
    scores, u := CalculateScores(population, f, t);
    AttainedStep(t, history, scores);
    CarriedStep(history, population, scores, f, n, elite, k);
    next := history + [scores];
    assert forall g :: 0 <= g < |history| ==> next[g] == history[g];
  }

  /** The main loop of `run` over sanitised options: `maxIters` rounds of
      evaluation, selection and creation of children. */
  method Evolve(box: Box, d: nat, f: Vector -> real, o: Options, scoreIdx: seq<nat>, draws: RunDraws,
                ghost elite: bool, ghost confined: bool)
    returns (population: seq<Vector>, t: Tracker, history: seq<seq<Score>>, finalIdx: seq<nat>)
    requires Mapped(box, d) && Runnable(o)
    requires d < 2 ==> o.crossover.pClassic <= 0.0
    requires IsPermutation(scoreIdx, |scoreIdx|)
    requires ValidRunDraws(draws, o, d)
    requires elite ==> o.eliteChildrenCount >= 1
    requires confined ==> Ordered(box) && o.crossover.pClassic + o.crossover.pLinear >= 1.0
    ensures |population| == o.populationCount && forall j :: 0 <= j < |population| ==> |population[j]| == d
    ensures IsPermutation(finalIdx, |finalIdx|)
    ensures o.maxIters > 0 ==> |finalIdx| == o.populationCount
    ensures |history| == o.maxIters && Recorded(history, f, o.populationCount)
    ensures Bounded(t, history) && t.bestIdx < o.populationCount
    ensures Carried(history, population, elite, o.eliteChildrenCount)
    ensures confined ==> AllInBox(box, population) && HistoryInBox(box, history)
  {
    var n := o.populationCount;
    population := SeedPopulation(box, d, draws.seed);
    t := Initial;
    finalIdx := scoreIdx;
    history := [];
    var i := 0;
    while i < o.maxIters
      invariant 0 <= i <= o.maxIters
      invariant |population| == n && forall j :: 0 <= j < n ==> |population[j]| == d
      invariant IsPermutation(finalIdx, |finalIdx|)
      invariant i > 0 ==> |finalIdx| == n
      invariant |history| == i && Recorded(history, f, n) && Bounded(t, history) && t.bestIdx < n
      invariant Carried(history, population, elite, o.eliteChildrenCount)
      invariant confined ==> AllInBox(box, population) && HistoryInBox(box, history)
    {
      population, t, history, finalIdx := Round(box, d, f, o, population, t, history, finalIdx, i, draws.steps[i],
                                                elite, confined);
      i := i + 1;
    }
  }

  /** One pass of the main loop: evaluate the population, then breed the next
      one from the scores. */
  method Round(box: Box, d: nat, f: Vector -> real, o: Options, population: seq<Vector>, t: Tracker,
               history: seq<seq<Score>>, scoreIdx: seq<nat>, iter: nat, step: GenerationStep,
               ghost elite: bool, ghost confined: bool)
    returns (nextPopulation: seq<Vector>, u: Tracker, next: seq<seq<Score>>, nextIdx: seq<nat>)
    requires Mapped(box, d) && Runnable(o) && o.maxIters > 0
    requires d < 2 ==> o.crossover.pClassic <= 0.0
    requires IsPermutation(scoreIdx, |scoreIdx|)
    requires ValidStep(step, o, d)
    requires elite ==> o.eliteChildrenCount >= 1
    requires confined ==> Ordered(box) && o.crossover.pClassic + o.crossover.pLinear >= 1.0
    requires |population| == o.populationCount && forall j :: 0 <= j < |population| ==> |population[j]| == d
    requires Recorded(history, f, o.populationCount) && Bounded(t, history) && t.bestIdx < o.populationCount
    requires Carried(history, population, elite, o.eliteChildrenCount)
    requires confined ==> AllInBox(box, population) && HistoryInBox(box, history)
    ensures |nextPopulation| == o.populationCount
    ensures forall j :: 0 <= j < |nextPopulation| ==> |nextPopulation[j]| == d
    ensures IsPermutation(nextIdx, |nextIdx|) && |nextIdx| == o.populationCount
    ensures |next| == |history| + 1 && Recorded(next, f, o.populationCount)
    ensures Bounded(u, next) && u.bestIdx < o.populationCount
    ensures Carried(next, nextPopulation, elite, o.eliteChildrenCount)
    ensures confined ==> AllInBox(box, nextPopulation) && HistoryInBox(box, next)
  {
    var n := o.populationCount;
    var scores;
    scores, u, next := Record(population, f, t, history, n, elite, o.eliteChildrenCount, box, confined);
    nextPopulation, nextIdx := Generation(box, d, o, scores, scoreIdx, iter, step);
    assert next[|next| - 1] == scores;
  }

  datatype Outcome = Outcome(score: real, solution: Vector)

  /** The last evaluation of `run` and its return value: the tracked fitness
      and the vector that achieved it. */
  method Finish(box: Box, f: Vector -> real, population: seq<Vector>, t: Tracker, history: seq<seq<Score>>, n: nat,
                ghost elite: bool, ghost k: nat, ghost confined: bool)
    returns (outcome: Outcome, snapshots: seq<seq<Score>>)
    requires |population| == n && Recorded(history, f, n) && Bounded(t, history) && t.bestIdx < n
    requires Carried(history, population, elite, k)
    requires confined ==> AllInBox(box, population) && HistoryInBox(box, history)
    ensures |snapshots| == |history| + 1 && snapshots[..|history|] == history
    ensures Recorded(snapshots, f, n)
    ensures outcome.score <= InitialBest
    ensures forall g, j :: 0 <= g < |snapshots| && 0 <= j < |snapshots[g]| ==> outcome.score <= snapshots[g][j].value
    ensures outcome.score < InitialBest ==>
      AttainedBy(outcome.solution, outcome.score, snapshots) && f(outcome.solution) == outcome.score
    ensures elite ==> Monotone(snapshots)
    ensures ElitesKept(snapshots, k)
    ensures confined ==> HistoryInBox(box, snapshots) && InBox(box, outcome.solution)
  {
    var scores, u;
    scores, u, snapshots := Record(population, f, t, history, n, elite, k, box, confined);
    var solution := Solution(u, scores);
    SolutionAttains(box, f, u, scores, snapshots, n, confined);
    outcome := Outcome(u.bestScore, solution);
  }

  /** The corrected solution is a recorded individual whenever the tracked
      fitness is below the initial value, so it attains that fitness and
      lies wherever the history lies. */
  lemma SolutionAttains(box: Box, f: Vector -> real, u: Tracker, scores: seq<Score>, snapshots: seq<seq<Score>>,
                        n: nat, confined: bool)
    requires u.bestIdx < |scores| && |snapshots| >= 1 && snapshots[|snapshots| - 1] == scores
    requires Recorded(snapshots, f, n) && Bounded(u, snapshots)
    requires confined ==> HistoryInBox(box, snapshots)
    ensures u.bestScore < InitialBest ==>
      AttainedBy(Solution(u, scores), u.bestScore, snapshots) && f(Solution(u, scores)) == u.bestScore
    ensures confined ==> InBox(box, Solution(u, scores))
  {
    if u.bestScore < InitialBest {
      var g, j :| 0 <= g < |snapshots| && 0 <= j < |snapshots[g]| && snapshots[g][j] == Score(u.bestX, u.bestScore);
      assert f(u.bestX) == u.bestScore;
      assert confined ==> ScoresInBox(box, snapshots[g]);
    } else if confined {
      assert ScoresInBox(box, snapshots[|snapshots| - 1]);
    }
  }

  /** `run`: the result is an error exactly when sanitising the options
      fails. Otherwise one snapshot is recorded per evaluation, the returned
      fitness is a lower bound of every recorded fitness (the initial 1e99
      when nothing is smaller), and below 1e99 it is attained by the returned
      solution; with an elite the best fitness never worsens, and without
      heuristic crossover every individual stays inside the box. */
  method Run(box: Box, d: nat, f: Vector -> real, o: Options, scoreIdx: seq<nat>, draws: RunDraws)
    returns (r: Result<Outcome>, snapshots: seq<seq<Score>>, finalIdx: seq<nat>)
    requires Mapped(box, d)
    requires Sanitize(d, o).Ok? ==> Runnable(o)
    requires IsPermutation(scoreIdx, |scoreIdx|)
    requires ValidRunDraws(draws, o, d)
    ensures r.Err? <==> Sanitize(d, o).Err?
    ensures r.Err? ==> r.error == Sanitize(d, o).error && snapshots == [] && finalIdx == scoreIdx
    ensures IsPermutation(finalIdx, |finalIdx|)
    ensures r.Ok? && o.maxIters > 0 ==> |finalIdx| == o.populationCount
    ensures r.Ok? ==> |snapshots| == o.maxIters + 1 && Recorded(snapshots, f, o.populationCount)
    ensures r.Ok? ==> r.value.score <= InitialBest
    ensures r.Ok? ==> forall g, j :: 0 <= g < |snapshots| && 0 <= j < |snapshots[g]| ==>
      r.value.score <= snapshots[g][j].value
    ensures r.Ok? && r.value.score < InitialBest ==>
      AttainedBy(r.value.solution, r.value.score, snapshots) && f(r.value.solution) == r.value.score
    ensures r.Ok? && o.eliteChildrenCount >= 1 ==> Monotone(snapshots)
    ensures r.Ok? ==> ElitesKept(snapshots, o.eliteChildrenCount)
    ensures r.Ok? ==> forall g, t :: 0 <= g < |snapshots| - 1 ==>
      |AtMost(snapshots[g + 1], t)| >= Min(o.eliteChildrenCount, |AtMost(snapshots[g], t)|)
    ensures (r.Ok? && Ordered(box) &&
             Sanitize(d, o).value.crossover.pClassic + Sanitize(d, o).value.crossover.pLinear >= 1.0) ==>
      HistoryInBox(box, snapshots) && InBox(box, r.value.solution)
  {
    var sanitized := Sanitize(d, o);
    if sanitized.Err? {
      return Err(sanitized.error), [], scoreIdx;
    }
    var opts := sanitized.value;
    assert opts.(crossover := o.crossover) == o;
    ghost var elite := opts.eliteChildrenCount >= 1;
    ghost var confined := Ordered(box) && opts.crossover.pClassic + opts.crossover.pLinear >= 1.0;
    var population, t, history;
    population, t, history, finalIdx := Evolve(box, d, f, opts, scoreIdx, draws, elite, confined);
    var outcome;
    outcome, snapshots := Finish(box, f, population, t, history, opts.populationCount, elite,
                                 opts.eliteChildrenCount, confined);
    forall g, t | 0 <= g < |snapshots| - 1
      ensures |AtMost(snapshots[g + 1], t)| >= Min(o.eliteChildrenCount, |AtMost(snapshots[g], t)|)
    {
      BestCountKept(snapshots[g], snapshots[g + 1], o.eliteChildrenCount, t);
    }
    r := Ok(outcome);
  }
}

=== FILE: mutation.dfy ===
/**
 Random seeding of the first population and the two mutation operators:
 full-range (a fresh uniform gene, per gene) and fine-range (a small step
 along a direction, then a hard clamp into the box).
 */
module Mutation {
  import opened Vectors
  import opened Bounds
  import opened Draws

  /** One individual of the first generation: gene `j` is the image of the
      mutation draw `us[j]` under the bounds map. */
  function SeedIndividual(box: Box, d: nat, us: seq<real>): (x: Vector)
    requires Mapped(box, d) && |us| == d
    ensures |x| == d
    ensures forall j :: 0 <= j < d && box.scale[j] != 0.0 ==> Normalize(box, j, x[j]) == us[j]
    ensures Ordered(box) && AllSignedUnits(us) ==> InBox(box, x)
  {
    var x := seq(d, j requires 0 <= j < d => Denormalize(box, j, us[j]));
    forall j | 0 <= j < d && box.scale[j] != 0.0
      ensures Normalize(box, j, x[j]) == us[j]
    {
      NormalizeRoundTrip(box, d, j, us[j], x[j]);
    }
    if Ordered(box) && AllSignedUnits(us) then
      forall j | 0 <= j < d
        ensures box.xMin[j] <= x[j] <= box.xMax[j]
      {
        DenormalizeInBounds(box, d, j, us[j]);
      }
      x
    else
      x
  }

  /** The first population: one row of mutation draws per individual. */
  function SeedPopulation(box: Box, d: nat, draws: seq<seq<real>>): (population: seq<Vector>)
    requires Mapped(box, d)
    requires forall i :: 0 <= i < |draws| ==> |draws[i]| == d
    ensures |population| == |draws|
    ensures forall i :: 0 <= i < |population| ==> |population[i]| == d
    ensures Ordered(box) && (forall i :: 0 <= i < |draws| ==> AllSignedUnits(draws[i])) ==>
      forall i :: 0 <= i < |population| ==> InBox(box, population[i])
  {
    seq(|draws|, i requires 0 <= i < |draws| => SeedIndividual(box, d, draws[i]))
  }

  /** `fullRangeMutation`: each gene whose coin `coins[i]` is at most `pFull`
      is replaced by the image of `values[i]` under the bounds map; every other
      gene is kept. */
  function FullRangeMutation(box: Box, d: nat, x: Vector, pFull: real, coins: seq<real>, values: seq<real>): (y: Vector)
    requires Mapped(box, d) && |x| == d && |coins| == d && |values| == d
    ensures |y| == d
    ensures forall i :: 0 <= i < d && coins[i] > pFull ==> y[i] == x[i]
    ensures forall i :: 0 <= i < d && coins[i] <= pFull && box.scale[i] != 0.0 ==>
      Normalize(box, i, y[i]) == values[i]
    ensures forall i :: 0 <= i < d && coins[i] <= pFull && Ordered(box) && AllSignedUnits(values) ==>
      box.xMin[i] <= y[i] <= box.xMax[i]
    ensures Ordered(box) && AllSignedUnits(values) && InBox(box, x) ==> InBox(box, y)
  {
    var drawn := SeedIndividual(box, d, values);
    seq(d, i requires 0 <= i < d => if coins[i] <= pFull then drawn[i] else x[i])
  }

  /** `std::min(std::max(v, lo), hi)`. */
  function Clamp(v: real, lo: real, hi: real): (r: real)
    ensures r <= hi
    ensures lo <= hi ==> lo <= r
    ensures lo <= v <= hi ==> r == v
    ensures v < lo && lo <= hi ==> r == lo
    ensures v > hi ==> r == hi
  {
    var up := if v < lo then lo else v;
    if hi < up then hi else up
  }

  /** Clamping a clamped value changes nothing. */
  lemma ClampIdempotent(v: real, lo: real, hi: real)
    requires lo <= hi
    ensures Clamp(Clamp(v, lo, hi), lo, hi) == Clamp(v, lo, hi)
  {
  }

  /** `x + dir * mult`: the unclamped step of fine-range mutation. */
  function Step(x: Vector, dir: Vector, mult: real): (moved: Vector)
    requires |x| == |dir|
    ensures |moved| == |x|
    ensures forall i :: 0 <= i < |x| ==> moved[i] - x[i] == dir[i] * mult
  {
    seq(|x|, i requires 0 <= i < |x| => x[i] + dir[i] * mult)
  }

  /** The clamping loop: every gene is forced into its bounds, and genes
      already inside them are kept. */
  function ClampToBox(box: Box, v: Vector): (y: Vector)
    requires |v| == |box.xMin| == |box.xMax|
    ensures |y| == |v|
    ensures forall i :: 0 <= i < |y| ==> y[i] <= box.xMax[i]
    ensures Ordered(box) ==> InBox(box, y)
    ensures forall i :: 0 <= i < |y| && box.xMin[i] <= v[i] <= box.xMax[i] ==> y[i] == v[i]
    ensures forall i :: 0 <= i < |y| && v[i] < box.xMin[i] <= box.xMax[i] ==> y[i] == box.xMin[i]
    ensures forall i :: 0 <= i < |y| && v[i] > box.xMax[i] ==> y[i] == box.xMax[i]
    ensures InBox(box, v) ==> y == v
  {
    seq(|v|, i requires 0 <= i < |v| => Clamp(v[i], box.xMin[i], box.xMax[i]))
  }

  /** `fineRangeMutation` with the random unit direction supplied as `dir`:
      every gene moves by `dir[i] * (m * width)` and is then clamped. For any
      direction, multiplier and width the result lies in the box, a moved
      gene that is already inside its bounds is kept as moved, and one that
      overshoots a bound sits on that bound. */
  function FineRangeMutation(box: Box, x: Vector, dir: Vector, m: real, width: real): (y: Vector)
    requires |x| == |dir| == |box.xMin| == |box.xMax|
    ensures |y| == |x|
    ensures forall i :: 0 <= i < |y| ==> y[i] <= box.xMax[i]
    ensures Ordered(box) ==> InBox(box, y)
    ensures forall i :: 0 <= i < |y| ==>
      var moved := x[i] + dir[i] * (m * width);
      && (box.xMin[i] <= moved <= box.xMax[i] ==> y[i] == moved)
      && (moved < box.xMin[i] <= box.xMax[i] ==> y[i] == box.xMin[i])
      && (moved > box.xMax[i] ==> y[i] == box.xMax[i])
  {
    ClampToBox(box, Step(x, dir, m * width))
  }
}

=== FILE: options.dfy ===
/**
 Run configuration (`Genocop::Options`), the sanity pass `run` applies to it
 before the first generation, and the annealed fine-mutation range.
 */
module Config {

  datatype TournamentOptions = TournamentOptions(size: int, p: real)

  datatype CrossoverOptions = CrossoverOptions(
    totalProbability: real,
    pClassic: real,
    pLinear: real,
    pHeuristic: real,
    heuristicRangeMult: real)

  datatype MutationOptions = MutationOptions(
    pFull: real,
    pFine: real,
    fineMutationMin: real,
    fineMutationMax: real)

  datatype Options = Options(
    populationCount: nat,
    parentsCount: nat,
    maxIters: nat,
    tournament: TournamentOptions,
    eliteChildrenCount: nat,
    crossover: CrossoverOptions,
    mutation: MutationOptions)

  /** The defaults declared in the header. */
  const Defaults: Options := Options(
    100, 35, 1000,
    TournamentOptions(4, 0.9),
    0,
    CrossoverOptions(0.3, 0.4, 0.3, 0.3, 2.0),
    MutationOptions(0.005, 0.3, 0.00001, 0.15))

  /** The two fatal configuration errors `run` throws. */
  datatype ConfigError = ZeroCrossoverSum | NegativeCrossoverProbability

  datatype Result<T> = Ok(value: T) | Err(error: ConfigError)

  /** A negative overall crossover probability is tolerated down to -1e-5. */
  const NegativeTolerance: real := 0.00001

  /** Sum of the three crossover shares, in the order the source adds them. */
  function MixSum(c: CrossoverOptions): real {
    c.pClassic + c.pHeuristic + c.pLinear
  }

  /** With fewer than two genes there is no split point, so the classic
      share is forced to zero. */
  function DisableClassic(d: nat, c: CrossoverOptions): (r: CrossoverOptions)
    ensures d < 2 ==> r.pClassic == 0.0
    ensures d >= 2 ==> r == c
    ensures r.(pClassic := c.pClassic) == c
  {
    if d < 2 then c.(pClassic := 0.0) else c
  }

  /** The sanity pass over the options of a run with `d` genes. */
  function Sanitize(d: nat, o: Options): (r: Result<Options>)
    ensures r == Err(ZeroCrossoverSum) <==>
      o.crossover.totalProbability > 0.0 && MixSum(DisableClassic(d, o.crossover)) <= 0.0
    ensures r == Err(NegativeCrossoverProbability) <==>
      o.crossover.totalProbability < -NegativeTolerance
    ensures r.Ok? ==> r.value.(crossover := o.crossover) == o
    ensures r.Ok? ==>
      r.value.crossover.totalProbability == o.crossover.totalProbability &&
      r.value.crossover.heuristicRangeMult == o.crossover.heuristicRangeMult
    ensures r.Ok? && d < 2 ==> r.value.crossover.pClassic == 0.0
    ensures r.Ok? && o.crossover.totalProbability > 0.0 ==>
      var s := MixSum(DisableClassic(d, o.crossover));
      var c := r.value.crossover;
      && s > 0.0
      && c.pClassic * s == DisableClassic(d, o.crossover).pClassic
      && c.pLinear * s == o.crossover.pLinear
      && c.pHeuristic * s == o.crossover.pHeuristic
    ensures r.Ok? && o.crossover.totalProbability <= 0.0 ==>
      r.value.crossover == DisableClassic(d, o.crossover)
  {
    var c := DisableClassic(d, o.crossover);
    if c.totalProbability > 0.0 then
      var s := MixSum(c);
      if s <= 0.0 then Err(ZeroCrossoverSum)
      else Ok(o.(crossover := c.(pClassic := c.pClassic / s,
                                  pHeuristic := c.pHeuristic / s,
                                  pLinear := c.pLinear / s)))
    else if c.totalProbability < -NegativeTolerance then Err(NegativeCrossoverProbability)
    else Ok(o.(crossover := c))
  }

  /** Whenever crossover is enabled, the sanitised shares sum to one. */
  lemma SanitizedMixIsNormalized(d: nat, o: Options)
    requires Sanitize(d, o).Ok?
    requires o.crossover.totalProbability > 0.0
    ensures MixSum(Sanitize(d, o).value.crossover) == 1.0
  {
    var c := DisableClassic(d, o.crossover);
    var s := MixSum(c);
    var n := Sanitize(d, o).value.crossover;
    assert c.pLinear == o.crossover.pLinear && c.pHeuristic == o.crossover.pHeuristic;
    var a, b, e := n.pClassic * s, n.pHeuristic * s, n.pLinear * s;
    assert a == c.pClassic && b == c.pHeuristic && e == c.pLinear;
    assert a + b + e == s;
    var sum := n.pClassic + n.pHeuristic + n.pLinear;
    assert sum * s == a + b + e;
    assert (sum - 1.0) * s == 0.0;
    CancelPositive(sum - 1.0, s);
  }

  lemma CancelPositive(x: real, s: real)
    requires s > 0.0 && x * s == 0.0
    ensures x == 0.0
  {
  }

  /** Sanitising twice changes nothing more than sanitising once. */
  lemma SanitizeIdempotent(d: nat, o: Options)
    requires Sanitize(d, o).Ok?
    ensures Sanitize(d, Sanitize(d, o).value) == Sanitize(d, o)
  {
    var n := Sanitize(d, o).value;
    if o.crossover.totalProbability > 0.0 {
      SanitizedMixIsNormalized(d, o);
      assert DisableClassic(d, n.crossover) == n.crossover;
    }
  }

  /** The default mix already sums to one, so sanitising the defaults for a
      run of at least two genes leaves them unchanged. */
  lemma DefaultsAreSane(d: nat)
    requires d >= 2
    ensures MixSum(Defaults.crossover) == 1.0
    ensures Sanitize(d, Defaults) == Ok(Defaults)
  {
  }

  /** With one gene, the defaults lose their classic share and the linear and
      heuristic shares are renormalised to one half each. */
  lemma DefaultsOneDimensional(d: nat)
    requires d < 2
    ensures Sanitize(d, Defaults).Ok?
    ensures Sanitize(d, Defaults).value.crossover.pClassic == 0.0
    ensures Sanitize(d, Defaults).value.crossover.pLinear == 0.5
    ensures Sanitize(d, Defaults).value.crossover.pHeuristic == 0.5
  {
  }

  /** The fine-mutation range of iteration `iter`, annealed linearly from
      `fineMutationMax` at iteration 0 to `fineMutationMin` at `maxIters`. */
  function FineRange(m: MutationOptions, iter: nat, maxIters: nat): real
    requires maxIters > 0
  {
    m.fineMutationMin + (m.fineMutationMax - m.fineMutationMin) * (1.0 - iter as real / maxIters as real)
  }

  lemma FineRangeEndpoints(m: MutationOptions, maxIters: nat)
    requires maxIters > 0
    ensures FineRange(m, 0, maxIters) == m.fineMutationMax
    ensures FineRange(m, maxIters, maxIters) == m.fineMutationMin
  {
  }

  /** Between the endpoints the range stays within [min, max] and never grows
      from one iteration to a later one. */
  lemma FineRangeAnneals(m: MutationOptions, iter: nat, later: nat, maxIters: nat)
    requires maxIters > 0
    requires m.fineMutationMin <= m.fineMutationMax
    requires iter <= later <= maxIters
    ensures m.fineMutationMin <= FineRange(m, iter, maxIters) <= m.fineMutationMax
    ensures FineRange(m, later, maxIters) <= FineRange(m, iter, maxIters)
  {
    var w := m.fineMutationMax - m.fineMutationMin;
    var t := iter as real / maxIters as real;
    var t' := later as real / maxIters as real;
    assert 0.0 <= t <= t' <= 1.0;
    assert 0.0 <= w * (1.0 - t) <= w by {
      assert w * (1.0 - t) == w - w * t;
      assert 0.0 <= w * t <= w * 1.0;
    }
    assert w * (1.0 - t') <= w * (1.0 - t) by {
      assert w * (1.0 - t) - w * (1.0 - t') == w * (t' - t);
    }
  }
}

=== FILE: selection.dfy ===
/**
 Tournament selection (`selectParents`): a partial Fisher-Yates shuffle of the
 engine's reusable index permutation, a sort of the drawn prefix by fitness,
 and a walk that lets each participant win with probability `tournamentP`.
 The same permutation is reordered by the elitism step of the assembler.
 */
module Selection {
  import opened Vectors
  import opened Draws

  /** The identity permutation 0, 1, ..., n - 1. */
  function Iota(n: nat): (s: seq<nat>)
    ensures |s| == n
    ensures forall i :: 0 <= i < n ==> s[i] == i
  {
    seq(n, i requires 0 <= i < n => i)
  }

  /** `s` holds each of 0 .. n - 1 exactly once. */
  ghost predicate IsPermutation(s: seq<nat>, n: nat) {
    multiset(s) == multiset(Iota(n))
  }

  /** Every entry of `s` indexes a population of size `n`. */
  predicate Below(s: seq<nat>, n: nat) {
    forall i :: 0 <= i < |s| ==> s[i] < n
  }

  /** A permutation of 0 .. n - 1 has length n, stays below n, and contains
      every index below n. */
  lemma PermutationFacts(s: seq<nat>, n: nat)
    requires IsPermutation(s, n)
    ensures |s| == n
    ensures Below(s, n)
    ensures forall v: nat :: v < n ==> v in s
  {
    var id := Iota(n);
    assert |multiset(s)| == |multiset(id)|;
    forall i | 0 <= i < |s|
      ensures s[i] < n
    {
      assert s[i] in multiset(s);
      assert s[i] in multiset(id);
      var q :| 0 <= q < n && id[q] == s[i];
    }
    forall v: nat | v < n
      ensures v in s
    {
      assert id[v] == v;
      assert v in multiset(id);
      assert v in multiset(s);
    }
  }

  /** `idxRng(rng) % (SCORES_COUNT - i) + i`: the position step `i` of the
      shuffle exchanges with. */
  function SwapIndex(i: nat, r: nat, n: nat): (j: nat)
    requires i < n
    ensures i <= j < n
  {
    r % (n - i) + i
  }

  /** `std::swap(s[i], s[j])`. */
  function Swap(s: seq<nat>, i: nat, j: nat): (r: seq<nat>)
    requires i < |s| && j < |s|
    ensures |r| == |s|
    ensures multiset(r) == multiset(s)
    ensures forall n :: Below(s, n) ==> Below(r, n)
  {
    s[i := s[j]][j := s[i]]
  }

  /** Positions to exchange: step `t` swaps position `t` with `swaps[t]`. */
  predicate SwapsFit(swaps: seq<nat>, n: nat) {
    |swaps| <= n && forall t :: 0 <= t < |swaps| ==> t <= swaps[t] < n
  }

  /** The exchanges of the shuffle, applied in order. */
  function ApplySwaps(s: seq<nat>, swaps: seq<nat>): (r: seq<nat>)
    requires SwapsFit(swaps, |s|)
    ensures |r| == |s|
    ensures multiset(r) == multiset(s)
    ensures forall n :: Below(s, n) ==> Below(r, n)
    decreases |swaps|
  {
    if |swaps| == 0 then s
    else
      var last := |swaps| - 1;
      Swap(ApplySwaps(s, swaps[..last]), last, swaps[last])
  }

  /** The exchange positions the shuffle draws lead to, step by step. */
  function SwapIndices(draws: seq<nat>, n: nat): (swaps: seq<nat>)
    requires |draws| <= n
    ensures |swaps| == |draws| && SwapsFit(swaps, n)
  {
    seq(|draws|, t requires 0 <= t < |draws| => SwapIndex(t, draws[t], n))
  }

  lemma SwapIndicesStep(draws: seq<nat>, i: nat, n: nat)
    requires i < |draws| <= n
    ensures SwapIndices(draws[..i + 1], n) == SwapIndices(draws[..i], n) + [SwapIndex(i, draws[i], n)]
  {
  }

  lemma ApplySwapsStep(s: seq<nat>, swaps: seq<nat>, j: nat)
    requires SwapsFit(swaps, |s|) && |swaps| <= j < |s|
    ensures SwapsFit(swaps + [j], |s|)
    ensures ApplySwaps(s, swaps + [j]) == Swap(ApplySwaps(s, swaps), |swaps|, j)
  {
    assert (swaps + [j])[..|swaps|] == swaps;
  }

  /** The shuffle loop of `runTournament`: step `i` exchanges position `i`
      with a position in [i, N - 1]. */
  method PartialShuffle(perm: seq<nat>, size: nat, draws: seq<nat>) returns (shuffled: seq<nat>, swaps: seq<nat>)
    requires size <= |perm|
    requires |draws| == size && forall t :: 0 <= t < size ==> IsIndexDraw(draws[t])
    ensures |swaps| == size && SwapsFit(swaps, |perm|)
    ensures swaps == SwapIndices(draws, |perm|)
    ensures shuffled == ApplySwaps(perm, swaps)
    ensures multiset(shuffled) == multiset(perm)
    ensures forall n :: Below(perm, n) ==> Below(shuffled, n)
  {
    var n := |perm|;
    shuffled := perm;
    swaps := [];
    var i := 0;
    while i < size
      invariant 0 <= i <= size
      invariant swaps == SwapIndices(draws[..i], n)
      invariant shuffled == ApplySwaps(perm, swaps)
    {
      var j := SwapIndex(i, draws[i], n);
      ApplySwapsStep(perm, swaps, j);
      SwapIndicesStep(draws, i, n);
      shuffled := Swap(shuffled, i, j);
      swaps := swaps + [j];
      i := i + 1;
    }
    assert draws[..size] == draws;
  }

  /** Fitness never decreases along `s`. */
  ghost predicate SortedByValue(scores: seq<Score>, s: seq<nat>)
    requires Below(s, |scores|)
  {
    forall i, j :: 0 <= i < j < |s| ==> scores[s[i]].value <= scores[s[j]].value
  }

  /** No entry of `s` has a fitness below `b`. */
  ghost predicate LowerBound(scores: seq<Score>, s: seq<nat>, b: real)
    requires Below(s, |scores|)
  {
    forall i :: 0 <= i < |s| ==> b <= scores[s[i]].value
  }

  /** Inserts index `v` before the first entry of `s` whose fitness is not
      below its own. */
  function Insert(scores: seq<Score>, v: nat, s: seq<nat>): (r: seq<nat>)
    requires v < |scores| && Below(s, |scores|)
    ensures |r| == |s| + 1 && Below(r, |scores|)
    ensures multiset(r) == multiset(s) + multiset{v}
    decreases |s|
  {
    if |s| == 0 then [v]
    else if scores[v].value <= scores[s[0]].value then [v] + s
    else
      assert s == [s[0]] + s[1..];
      [s[0]] + Insert(scores, v, s[1..])
  }

  /** A bound below both `v` and every entry of `s` stays below every entry
      after the insertion. */
  lemma {:induction false} InsertKeepsLowerBound(scores: seq<Score>, v: nat, s: seq<nat>, b: real)
    requires v < |scores| && Below(s, |scores|)
    requires LowerBound(scores, s, b) && b <= scores[v].value
    ensures LowerBound(scores, Insert(scores, v, s), b)
    decreases |s|
  {
    if |s| > 0 && scores[s[0]].value < scores[v].value {
      InsertKeepsLowerBound(scores, v, s[1..], b);
    }
  }

  /** Inserting into a sorted sequence keeps it sorted. */
  lemma {:induction false} InsertKeepsSorted(scores: seq<Score>, v: nat, s: seq<nat>)
    requires v < |scores| && Below(s, |scores|)
    requires SortedByValue(scores, s)
    ensures SortedByValue(scores, Insert(scores, v, s))
    decreases |s|
  {
    if |s| > 0 && scores[s[0]].value < scores[v].value {
      var tail := s[1..];
      InsertKeepsSorted(scores, v, tail);
      InsertKeepsLowerBound(scores, v, tail, scores[s[0]].value);
    }
  }

  /** Sorts a sequence of indices by the fitness they point at. */
  function SortByValue(scores: seq<Score>, s: seq<nat>): (r: seq<nat>)
    requires Below(s, |scores|)
    ensures |r| == |s| && Below(r, |scores|)
    ensures multiset(r) == multiset(s)
    ensures SortedByValue(scores, r)
    decreases |s|
  {
    if |s| == 0 then []
    else
      assert s == [s[0]] + s[1..];
      var rest := SortByValue(scores, s[1..]);
      InsertKeepsSorted(scores, s[0], rest);
      Insert(scores, s[0], rest)
  }

  /** The winner walk: the first position `i < last` whose coin beats the
      tournament probability wins; if none does, position `last` wins. */
  function WalkFrom(coins: seq<real>, p: real, last: nat, i: nat): (r: nat)
    requires i <= last <= |coins| + i
    requires last <= |coins|
    ensures i <= r <= last
    ensures forall j :: i <= j < r ==> coins[j] >= p
    ensures r < last ==> coins[r] < p
    decreases last - i
  {
    if i == last then last
    else if coins[i] < p then i
    else WalkFrom(coins, p, last, i + 1)
  }

  /** With a tournament probability of at least one, every coin in [0, 1)
      wins, so the walk stops at its first position. */
  lemma WalkIsDeterministic(coins: seq<real>, p: real, last: nat)
    requires last <= |coins|
    requires p >= 1.0 && AllProbabilities(coins)
    ensures WalkFrom(coins, p, last, 0) == 0
  {
  }

  /** The draws one tournament consumes: one shuffle draw per participant
      and one coin per participant but the last. */
  datatype TournamentDraw = TournamentDraw(shuffle: seq<nat>, coins: seq<real>)

  predicate ValidTournamentDraw(t: TournamentDraw, size: nat) {
    && |t.shuffle| == size
    && (forall i :: 0 <= i < size ==> IsIndexDraw(t.shuffle[i]))
    && |t.coins| + 1 == size
    && AllProbabilities(t.coins)
  }

  /** The walk's pick among the sorted participants `arranged[..size]`. */
  function Winner(arranged: seq<nat>, size: nat, coins: seq<real>, p: real): (winner: nat)
    requires 1 <= size <= |arranged| && |coins| + 1 == size
    ensures winner in arranged[..size]
  {
    var pos := WalkFrom(coins, p, size - 1, 0);
    assert arranged[..size][pos] == arranged[pos];
    arranged[pos]
  }

  /** A deterministic tournament (`tournamentP` at least 1) is won by the
      participant with the smallest fitness; when everybody takes part, that
      is the population's smallest fitness. */
  lemma DeterministicTournament(scores: seq<Score>, arranged: seq<nat>, size: nat, coins: seq<real>, p: real)
    requires 1 <= size <= |arranged| == |scores| && |coins| + 1 == size
    requires Below(arranged, |scores|) && SortedByValue(scores, arranged[..size])
    requires p >= 1.0 && AllProbabilities(coins)
    ensures forall j :: 0 <= j < size ==>
      scores[Winner(arranged, size, coins, p)].value <= scores[arranged[j]].value
    ensures size == |scores| && IsPermutation(arranged, |scores|) ==>
      NoneBelow(scores, scores[Winner(arranged, size, coins, p)].value)
  {
    WalkIsDeterministic(coins, p, size - 1);
    assert Winner(arranged, size, coins, p) == arranged[..size][0];
    assert forall j :: 0 <= j < size ==> arranged[..size][j] == arranged[j];
    if size == |scores| && IsPermutation(arranged, |scores|) {
      FirstIsGlobalMinimum(scores, arranged);
    }
  }

  /** `runTournament`: shuffle the first `size` positions of the permutation,
      sort them by fitness, and walk them to pick the winner. */
  method RunTournament(scores: seq<Score>, perm: seq<nat>, size: nat, draw: TournamentDraw, p: real)
    returns (winner: nat, arranged: seq<nat>)
    requires 1 <= size <= |scores| == |perm|
    requires Below(perm, |scores|) && IsPermutation(perm, |scores|)
    requires ValidTournamentDraw(draw, size)
    ensures |arranged| == |scores| && Below(arranged, |scores|)
    ensures IsPermutation(arranged, |scores|)
    ensures SortedByValue(scores, arranged[..size])
    ensures var shuffled := ApplySwaps(perm, SwapIndices(draw.shuffle, |perm|));
      multiset(arranged[..size]) == multiset(shuffled[..size]) && arranged[size..] == shuffled[size..]
    ensures winner < |scores|
    ensures winner == Winner(arranged, size, draw.coins, p)
    ensures p >= 1.0 && size == |scores| ==> NoneBelow(scores, scores[winner].value)
  {
    var shuffled, swaps := PartialShuffle(perm, size, draw.shuffle);
    arranged := SortPrefix(scores, shuffled, size);
    var pos := WalkFrom(draw.coins, p, size - 1, 0);
    winner := arranged[pos];
    if p >= 1.0 && size == |scores| {
      DeterministicTournament(scores, arranged, size, draw.coins, p);
    }
  }

  /** `std::sort` over the first `size` positions: the prefix becomes sorted,
      the rest is untouched, and the whole stays a rearrangement. */
  function SortPrefix(scores: seq<Score>, s: seq<nat>, size: nat): (r: seq<nat>)
    requires size <= |s| && Below(s, |scores|)
    ensures |r| == |s| && Below(r, |scores|)
    ensures multiset(r) == multiset(s)
    ensures multiset(r[..size]) == multiset(s[..size])
    ensures r[size..] == s[size..]
    ensures SortedByValue(scores, r[..size])
  {
    var sorted := SortByValue(scores, s[..size]);
    var r := sorted + s[size..];
    assert r[..size] == sorted && r[size..] == s[size..];
    assert s == s[..size] + s[size..];
    r
  }

  /** No individual of the population has a fitness below `v`. */
  ghost predicate NoneBelow(scores: seq<Score>, v: real) {
    forall k :: 0 <= k < |scores| ==> v <= scores[k].value
  }

  /** In a sorted permutation of the whole population the first index has
      the smallest fitness of all. */
  lemma FirstIsGlobalMinimum(scores: seq<Score>, s: seq<nat>)
    requires |s| == |scores| > 0 && Below(s, |scores|)
    requires IsPermutation(s, |scores|)
    requires SortedByValue(scores, s[..|s|])
    ensures forall k :: 0 <= k < |scores| ==> scores[s[0]].value <= scores[k].value
  {
    PermutationFacts(s, |scores|);
    assert s[..|s|] == s;
    forall k | 0 <= k < |scores|
      ensures scores[s[0]].value <= scores[k].value
    {
      var kn: nat := k;
      assert kn in s;
      var q :| 0 <= q < |s| && s[q] == k;
    }
  }

  /** The size check of `selectParents`: an index sequence of the wrong size
      is replaced by the identity, one of the right size is kept. Either way
      the result is a permutation of the population's indices. */
  method ResizeIndex(scoreIdx: seq<nat>, n: nat) returns (idx: seq<nat>)
    requires IsPermutation(scoreIdx, |scoreIdx|)
    ensures |idx| == n && Below(idx, n) && IsPermutation(idx, n)
    ensures |scoreIdx| == n ==> idx == scoreIdx
    ensures |scoreIdx| != n ==> idx == Iota(n)
  {
    idx := scoreIdx;
    if |idx| != n {
      idx := Iota(n);
    } else {
      PermutationFacts(scoreIdx, n);
    }
  }

  /** `selectParents`: the index sequence is brought to the population's
      size (reset to the identity on the first call of a run), then `count`
      tournaments run one after another, each on the permutation the
      previous one left. */
  method SelectParents(scores: seq<Score>, scoreIdx: seq<nat>, count: nat, size: nat, p: real,
                       draws: seq<TournamentDraw>)
    returns (parents: seq<Score>, winners: seq<nat>, nextIdx: seq<nat>)
    requires count > 0 ==> 1 <= size <= |scores|
    requires IsPermutation(scoreIdx, |scoreIdx|)
    requires |draws| == count
    requires forall t :: 0 <= t < count ==> ValidTournamentDraw(draws[t], size)
    ensures |parents| == count && |winners| == count
    ensures forall j :: 0 <= j < count ==> winners[j] < |scores| && parents[j] == scores[winners[j]]
    ensures IsPermutation(nextIdx, |scores|)
    ensures count == 0 ==> nextIdx == (if |scoreIdx| == |scores| then scoreIdx else Iota(|scores|))
    ensures p >= 1.0 && size == |scores| ==>
      forall j :: 0 <= j < count ==> NoneBelow(scores, parents[j].value)
  {
    var idx := ResizeIndex(scoreIdx, |scores|);
    parents, winners, nextIdx := Tournaments(scores, idx, count, size, p, draws);
  }

  /** The parent loop of `selectParents`: one tournament per parent. */
  method Tournaments(scores: seq<Score>, idx: seq<nat>, count: nat, size: nat, p: real,
                     draws: seq<TournamentDraw>)
    returns (parents: seq<Score>, winners: seq<nat>, nextIdx: seq<nat>)
    requires count > 0 ==> 1 <= size <= |scores|
    requires |idx| == |scores| && Below(idx, |scores|) && IsPermutation(idx, |scores|)
    requires |draws| == count
    requires forall t :: 0 <= t < count ==> ValidTournamentDraw(draws[t], size)
    ensures |parents| == count && |winners| == count
    ensures forall j :: 0 <= j < count ==> winners[j] < |scores| && parents[j] == scores[winners[j]]
    ensures IsPermutation(nextIdx, |scores|)
    ensures count == 0 ==> nextIdx == idx
    ensures p >= 1.0 && size == |scores| ==>
      forall j :: 0 <= j < count ==> NoneBelow(scores, parents[j].value)
  {
    nextIdx := idx;
    parents, winners := [], [];
    var i := 0;
    while i < count
      invariant 0 <= i <= count
      invariant i == 0 ==> nextIdx == idx
      invariant |parents| == i && |winners| == i
      invariant |nextIdx| == |scores| && Below(nextIdx, |scores|) && IsPermutation(nextIdx, |scores|)
      invariant forall j :: 0 <= j < i ==> winners[j] < |scores| && parents[j] == scores[winners[j]]
      invariant p >= 1.0 && size == |scores| ==>
        forall j :: 0 <= j < i ==> NoneBelow(scores, parents[j].value)
    {
      var winner, arranged := RunTournament(scores, nextIdx, size, draws[i], p);
      nextIdx := arranged;
      parents, winners := parents + [scores[winner]], winners + [winner];
      i := i + 1;
    }
  }
}

=== FILE: vectors.dfy ===
/**
 Vectors and scored individuals of the Genocop engine.

 A `Vector` is one candidate solution (the source's `std::valarray<double>`),
 with every `double` read as an exact `real`. A `Score` pairs a vector with its
 cached fitness; lower fitness is better.
 */
module Vectors {

  type Vector = seq<real>

  /** An individual and its fitness (`Genocop::Score`). */
  datatype Score = Score(x: Vector, value: real)

  /** The `operator<` of `Score`: compares fitness only. */
  predicate Less(a: Score, b: Score) {
    a.value < b.value
  }

  /** The order used by `std::sort` and `std::nth_element` is a strict weak
      order that looks at the fitness and never at the vector. */
  lemma LessIsStrictWeakOrder(a: Score, b: Score, c: Score, y: Vector)
    ensures !Less(a, a)
    ensures Less(a, b) ==> !Less(b, a)
    ensures Less(a, b) && Less(b, c) ==> Less(a, c)
    ensures (!Less(a, b) && !Less(b, a)) <==> a.value == b.value
    ensures Less(a, b) == Less(a.(x := y), b) == Less(a, b.(x := y))
  {
  }

  /** Elementwise `(1 - alpha) * x + alpha * y`, the valarray expression shared
      by the linear and heuristic crossovers. */
  function Blend(x: Vector, y: Vector, alpha: real): (r: Vector)
    requires |x| == |y|
    ensures |r| == |x|
    ensures forall i :: 0 <= i < |r| ==> r[i] == x[i] + alpha * (y[i] - x[i])
  {
    seq(|x|, i requires 0 <= i < |x| => (1.0 - alpha) * x[i] + alpha * y[i])
  }

  /** The blend reproduces its first operand at 0 and its second at 1. */
  lemma BlendEndpoints(x: Vector, y: Vector)
    requires |x| == |y|
    ensures Blend(x, y, 0.0) == x
    ensures Blend(x, y, 1.0) == y
  {
  }

  /** Swapping the operands mirrors the weight. */
  lemma BlendSymmetric(x: Vector, y: Vector, alpha: real)
    requires |x| == |y|
    ensures Blend(x, y, alpha) == Blend(y, x, 1.0 - alpha)
  {
  }

  /** `v` lies between `a` and `b`, whichever of the two is smaller. */
  predicate Between(v: real, a: real, b: real) {
    (a <= v <= b) || (b <= v <= a)
  }

  /** A weight in [0, 1] keeps every coordinate on the segment between the
      operands' coordinates. */
  lemma BlendBetween(x: Vector, y: Vector, alpha: real)
    requires |x| == |y|
    requires 0.0 <= alpha <= 1.0
    ensures forall i :: 0 <= i < |x| ==> Between(Blend(x, y, alpha)[i], x[i], y[i])
  {
    var r := Blend(x, y, alpha);
    forall i | 0 <= i < |x|
      ensures Between(r[i], x[i], y[i])
    {
      BlendCoordinateBetween(x[i], y[i], alpha);
    }
  }

  lemma BlendCoordinateBetween(a: real, b: real, alpha: real)
    requires 0.0 <= alpha <= 1.0
    ensures Between(a + alpha * (b - a), a, b)
  {
    var c := b - a;
    var t := alpha * c;
    if a <= b {
      FractionOfNonNegative(alpha, c, t);
    } else {
      var w := alpha * -c;
      FractionOfNonNegative(alpha, -c, w);
      assert t == -w;
    }
  }

  /** A fraction `p` in [0, 1] of a non-negative quantity `c` stays between
      0 and `c`. */
  lemma FractionOfNonNegative(alpha: real, c: real, p: real)
    requires 0.0 <= alpha <= 1.0 && 0.0 <= c
    requires p == alpha * c
    ensures 0.0 <= p <= c
  {
    ProductNonNegative(alpha, c);
    ProductNonNegative(1.0 - alpha, c);
    assert (1.0 - alpha) * c == c - alpha * c;
  }

  lemma ProductNonNegative(x: real, y: real)
    requires 0.0 <= x && 0.0 <= y
    ensures 0.0 <= x * y
  {
  }
}
